=== FILE: README.md ===
# SunnyAvatar core, modelled in Dafny

SunnyAvatar is a browser app that turns a photo into a cartoon avatar. It can
also edit an avatar with a text instruction, animate selected avatars into a
video, or combine them into an animated GIF. Users sign in with Google or as a
guest, and guests get ten generations per day. This project models the rules
underneath the UI:

- **Controller (`App`, App.tsx).** The newest-first gallery, the guest quota
  gate and its counter, and the guards of the generate, edit, video and GIF
  handlers. It also covers the choice of reference images, the load/save
  effects that keep one storage slot per user, and `extractErrorMessage`.
- **Gallery screen (`GalleryView`, components/Gallery.tsx).** Selection
  toggling, detail-view navigation and the index clamp effect, swipe
  classification, the confirm-dialog dispatch, and the back, tile-click and
  bulk-delete handlers.
- **Remote-call shaping (`Gemini`, services/geminiService.ts).** The style
  prompt table, extraction of the first inline image part, and error
  wrapping. It also covers reference-image selection for video, the video
  request, classification of a finished video operation, and polling over a
  finite trace of status replies.
- **GIF compositor (`Gif`, services/gifService.ts).** Source filtering,
  per-frame failure skipping, the fixed 512×512 canvas, the 500 ms delay, and
  the error cases. Decoding, drawing and encoding are oracles.
- **Translation (`Language`, contexts/LanguageContext.tsx).** Key lookup with
  dotted category keys, then sequential first-occurrence `{name}`
  substitution.
- **Identity (`Auth`, contexts/AuthContext.tsx).** Guest ids, the JWT payload
  segment (section 7.1 of RFC 7515), the base64url-to-base64 alphabet mapping
  (section 5 of RFC 4648), and the login, logout and mount state changes.

Shared modules:

- `Wrappers` holds `Option` and `Result`.
- `Text` holds the JavaScript string operations the code relies on: `split`
  on one character, `indexOf`, `replace` with a string pattern, and
  `startsWith`.
- `DataUrl` holds the splitting of `data:<mime>;base64,<data>` URLs (section
  3 of RFC 2397).
- `Errors` holds the shapes a thrown value can take.
- `Types` holds the records of types.ts.

Everything outside the browser becomes a parameter:

- the current time and `toDateString()` value;
- parsed storage contents, as a map from key to parsed value;
- each SDK reply, and the result of each awaited call;
- image decode, draw and encode.

A controller handler returns the new state together with the remote call it
issued, if any. That lets the contracts say when no generator is called.

## Model

| member | source | states |
|---|---|---|
| Text.Split | contexts/LanguageContext.tsx:22 | `split` on one character always yields at least one piece, at least two exactly when the separator occurs, and no piece contains the separator |
| Text.SecondPiece | contexts/AuthContext.tsx:17 | `split(sep)[1]` is absent without a separator and otherwise is the text between the first separator and the next one, or the end |
| Text.JoinSplit | contexts/LanguageContext.tsx:22 | joining the pieces of a split with the separator rebuilds the original string |
| Text.SplitJoin | contexts/LanguageContext.tsx:22 | splitting a join of separator-free pieces gives back those pieces |
| Text.IndexOfFrom | contexts/LanguageContext.tsx:31 | `indexOf` finds the least position at or after `from` where the pattern occurs, and reports none only when no such position exists |
| Text.ReplaceFirstAt | contexts/LanguageContext.tsx:31 | `replace` with a string pattern rewrites only the first occurrence and keeps the text before and after it, later occurrences included |
| Text.ReplaceFirstAbsent | contexts/LanguageContext.tsx:31 | replacing a pattern that does not occur leaves the text unchanged |
| Text.ReplaceFirst | contexts/LanguageContext.tsx:31 | an absent pattern leaves the text unchanged; a present one changes the length by exactly the difference between replacement and pattern, since one occurrence is replaced |
| Text.NatToString | contexts/AuthContext.tsx:91 | the decimal rendering of a timestamp is a string of digits that spells that number, with no leading zero |
| Errors.ExtractErrorMessage | App.tsx:140-147 | a thrown string is used as is; otherwise the first truthy of `message` and `error.message`, then `toString()` when present, then the generic text; each case is fixed by its own clause |
| Errors.MessageText | services/geminiService.ts:142 | `(error as Error).message` is the message when present, and "undefined" when the message is missing or a string was thrown |
| Errors.ExtractOfJsError | App.tsx:140-147 | an `Error` with a non-empty message is reported by exactly that message |
| DataUrl.Payload | App.tsx:159 | `split(',')[1]` is present exactly when the URL has a comma, and is then the text after the first comma up to the next comma or the end |
| DataUrl.Mime | App.tsx:209 | the media type is the text after the first `:` in the part before the first `;` when that is non-empty, and `image/png` otherwise; it is never empty |
| DataUrl.SplitMake | services/geminiService.ts:165-166 | for a data URL built from a media type and payload without separators, the two splits return exactly that payload and media type |
| Language.Lookup | contexts/LanguageContext.tsx:21-26 | an undotted key returns its non-empty entry, else the key; a dotted key looks up the sub-key (second piece) in the category (first piece) and falls back to the whole key |
| Language.LookupUntranslated | contexts/LanguageContext.tsx:21-26 | a plain key without a translation reads as the key itself |
| Language.LookupDotted | contexts/LanguageContext.tsx:21-23 | a key `category.subKey`, with any further `.`-pieces ignored, reads that category's entry when it is non-empty and falls back to the whole key |
| Language.Translate | contexts/LanguageContext.tsx:29-35 | without parameters, or with an empty parameter list, the looked-up text is returned unchanged |
| Language.Substitute | contexts/LanguageContext.tsx:29-33 | no parameters leave the text unchanged, and so do parameters applied to a text without `{` whose values hold no `{` |
| Language.SubstituteSnoc | contexts/LanguageContext.tsx:30-32 | parameters apply in entry order: the last one rewrites the text all earlier ones produced |
| Language.OnlyFirstOccurrence | contexts/LanguageContext.tsx:30-32 | a parameter fills only the first occurrence of its placeholder, and a second occurrence survives verbatim |
| Language.ChainedSubstitution | contexts/LanguageContext.tsx:30-32 | a placeholder produced by an earlier parameter is filled by a later one |
| Auth.PayloadSegment | contexts/AuthContext.tsx:17 | the second segment exists exactly when the token contains a `.`, and is then the text after the first `.` up to the next `.` or the end |
| Auth.Base64UrlToBase64 | contexts/AuthContext.tsx:18 | every `-` becomes `+`, every `_` becomes `/`, the length is preserved and no base64url-only character remains |
| Auth.Base64ToBase64Url | contexts/AuthContext.tsx:18 | the reverse alphabet mapping, pointwise and length-preserving |
| Auth.UrlToStdKeepsOthers | contexts/AuthContext.tsx:18 | every character other than `-` and `_` is left unchanged |
| Auth.UrlRoundTrip | contexts/AuthContext.tsx:18 | mapping back restores any base64url text that has no `+` or `/` |
| Auth.DecodeJwt | contexts/AuthContext.tsx:15-27 | a token without a second segment decodes to null; otherwise the result is the decoding of the alphabet-mapped segment |
| Auth.HandleLogin | contexts/AuthContext.tsx:84-87 | the user is set and stored, and loading is unchanged |
| Auth.GuestUser | contexts/AuthContext.tsx:89-95 | a guest id is `guest-` followed by the decimal digits of the creation time, which spell that time; name, email and picture are the fixed guest values |
| Auth.GuestIdsDistinct | contexts/AuthContext.tsx:91 | guests created at different times get different ids |
| Auth.LoginAsGuest | contexts/AuthContext.tsx:89-97 | guest login sets and stores exactly the guest built from the current time, and leaves loading as it was |
| Auth.GoogleCallback | contexts/AuthContext.tsx:63-75 | a credential that fails to decode leaves the state unchanged; otherwise the user is built from `sub`, `name`, `email` and `picture`, then set and stored |
| Auth.Logout | contexts/AuthContext.tsx:99-101 | the user is cleared and the stored user is removed |
| Auth.Mount | contexts/AuthContext.tsx:34-40 | a saved user is restored, an absent one leaves the user alone, and loading ends either way |
| Auth.LogoutAfterLogin | contexts/AuthContext.tsx:84-101 | logging out after a login leaves the same state as logging out directly |
| Auth.ReloadRestoresLogin | contexts/AuthContext.tsx:34-40 | after a reload the mount effect restores the logged-in user, and restores nobody after a logout |
| Quota.CheckGuestLimit | App.tsx:84-101 | the gate rejects exactly when the user is a guest, the stored date is today and the stored count is at least 10; it passes for non-guests and stale dates |
| Quota.IncrementGuestUsage | App.tsx:103-116 | no change for non-guests; for a guest the record is dated today, with count 1 after a stale or missing date and the stored count (missing as 0) plus one on the same day |
| Quota.DisplayedUsage | App.tsx:64-72 | the shown counter is today's stored count (missing as 0), and 0 for a stale or missing date |
| Quota.UsesWithinLimit | App.tsx:84-116 | from a same-day count `c`, `n` gate-then-increment cycles all succeed while `c + n <= 10`, raising the count to `c + n` |
| Quota.AtLimitRejected | App.tsx:95-97 | a same-day count at or above 10 is rejected |
| Quota.DailyLimit | App.tsx:84-116 | on one day, starting from a stale or missing record, cycles 1 to 10 succeed with count equal to the cycle number and the 11th is rejected |
| Quota.NewDayPasses | App.tsx:90-111 | on a later day the gate passes whatever the count, and a guest's count restarts at 1 |
| GalleryStore.Prepend | App.tsx:172 | the new artifact is at index 0 and the previous entries follow unchanged |
| GalleryStore.DeleteById | App.tsx:135-137 | exactly the entries with another id survive; deleting an absent id changes nothing |
| GalleryStore.DeleteConcat | App.tsx:135-137 | deletion distributes over concatenation, so survivors keep their order |
| GalleryStore.DeleteCounts | App.tsx:135-137 | every copy of an entry with another id survives, and no entry with the deleted id does |
| GalleryStore.DeleteUndoesPrepend | App.tsx:135-137 | deleting a freshly prepended artifact with a new id restores the gallery |
| GalleryStore.DeleteAll | components/Gallery.tsx:302 | one deletion per selected id never grows the gallery |
| GalleryStore.Without | components/Gallery.tsx:302 | the reference for bulk deletion: exactly the entries whose id is not listed |
| GalleryStore.DeleteAllIsWithout | components/Gallery.tsx:302 | deleting the selected ids one after another equals removing all of them at once, in gallery order |
| GalleryStore.StoredGallery | App.tsx:47-60 | a missing or unparsable slot loads as the empty gallery; a parsed one loads as stored |
| GalleryStore.LoadEffect | App.tsx:42-61 | no user clears the gallery and the loaded flag; a user gets the gallery stored under their key, marked loaded; storage is not written |
| GalleryStore.SaveEffect | App.tsx:76-81 | only a present user with a loaded gallery writes, and only to that user's slot |
| GalleryStore.Mutate | App.tsx:76-81 | a gallery change is written to the current user's slot when loaded, and storage is untouched otherwise |
| GalleryStore.SwitchUser | App.tsx:42-81 | after a user change the session shows that user, is loaded exactly when there is a user, and holds that user's stored gallery or nothing |
| GalleryStore.SwitchUserStorage | App.tsx:42-81 | after a user switch only the new user's slot may change, and it ends up holding what was loaded for that user; signing out writes nothing |
| GalleryStore.NoSaveBeforeLoad | App.tsx:76-81 | the first render after signing out and in again writes nothing, because the loaded flag is still clear |
| Gemini.ParseStyleTag | services/geminiService.ts:10-29 | each of the seven style ids names its style and no other string does |
| Gemini.StylePrompt | services/geminiService.ts:10-29 | a style id gets that style's description, and any other value gets the generic fallback |
| Gemini.StylePromptsDistinct | services/geminiService.ts:10-29 | the seven descriptions are pairwise distinct and differ from the fallback, and any other value gets the fallback |
| Gemini.DescriptionLength | services/geminiService.ts:13-27 | the lengths of the seven descriptions and of the fallback |
| Gemini.FirstImagePart | services/geminiService.ts:80-85 | the chosen part is the first whose `inlineData.data` is non-empty; none is chosen exactly when no part has one |
| Gemini.ImageFromResponse | services/geminiService.ts:74-89 | missing or empty candidates and a missing image part are the two errors; otherwise the result is the first image part's data behind `data:image/png;base64,`, whatever mime the part declared |
| Gemini.ImageUrlRoundTrip | services/geminiService.ts:89 | the returned URL splits back into the returned data and `image/png` |
| Gemini.GenerateAvatarResult | services/geminiService.ts:91-94 | every failure becomes the fixed "Failed to generate avatar. Please try again." error; success is exactly a reply with an extractable image |
| Gemini.EditAvatarResult | services/geminiService.ts:140-143 | every failure is rethrown as "Failed to edit avatar. " followed by the inner message |
| Gemini.EditWithoutImage | services/geminiService.ts:137-142 | a response without an image part fails the edit with "Failed to edit avatar. AI did not return an image." |
| Gemini.KeepImages | services/geminiService.ts:157-175 | a reference is made exactly for the URLs that start with `data:image`, never more references than URLs |
| Gemini.KeepImagesConcat | services/geminiService.ts:157-175 | filtering works piecewise, so references keep input order |
| Gemini.SelectReferences | services/geminiService.ts:154-175 | at most three references; for up to three URLs, every image data URL among them, in order; for more, only those among the first three |
| Gemini.SingleImageReference | services/geminiService.ts:154-175 | one selected image becomes the one reference the video request carries |
| Gemini.NoBackfill | services/geminiService.ts:154 | URLs after the third are never used |
| Gemini.DroppedNotReplaced | services/geminiService.ts:154-163 | a dropped non-image URL among the first three is not replaced by a later image URL |
| Gemini.BuildVideoRequest | services/geminiService.ts:181-192 | references are attached exactly when some were selected; an empty prompt becomes the default animation prompt; one video is requested |
| Gemini.GeneratedVideos | services/geminiService.ts:210 | the list under `response` wins whenever present, even when empty; otherwise the one under `result` is used |
| Gemini.DownloadLink | services/geminiService.ts:212 | there is a download link exactly when the first generated video has a non-empty uri, and it is that uri |
| Gemini.ClassifyOperation | services/geminiService.ts:203-217 | a reported error fails with "Video generation failed: " and its message; success is exactly no error plus a uri; no uri is a failure |
| Gemini.Settle | services/geminiService.ts:197-201 | a settled poll's operation is done, and an operation already done settles immediately |
| Gemini.Poll | services/geminiService.ts:197-201 | the polling loop computes the settled job, and stays pending only when every reply was a not-done operation |
| Gemini.WrapVideoError | services/geminiService.ts:226-229 | a video failure is rethrown as "Failed to generate video. " followed by the inner message |
| Gemini.GenerateVideo | services/geminiService.ts:146-229 | each stage decides the outcome: a rejected submission, a rejected status check, an operation error or missing uri, a rejected fetch and a non-`ok` download each fail with the video prefix and their own message; polling that never finishes stays pending; an `ok` download gives its object URL, fetched from the uri plus `&key=`; nothing is fetched before a uri exists |
| Gemini.DoneWithoutUriFails | services/geminiService.ts:210-217 | a done operation without a uri fails the job with the no-uri message and fetches nothing |
| Gemini.VideoSucceeds | services/geminiService.ts:196-224 | an operation that finishes with a uri, followed by an `ok` download, yields the downloaded object URL |
| Gif.ValidSources | services/gifService.ts:6-24 | exactly the loaded, complete images with positive natural size are kept, and failed loads are dropped |
| Gif.ValidSourcesConcat | services/gifService.ts:22-24 | filtering works piecewise, so sources keep input order |
| Gif.Frames | services/gifService.ts:41-74 | one frame per source whose draw and capture succeed, each with delay 500; a throwing draw skips only its frame; the loop fails exactly when some capture throws, and then with the first such error |
| Gif.FramesConcat | services/gifService.ts:41-74 | frame building works piecewise: the first error wins, and otherwise frames keep source order |
| Gif.DrawFrames | services/gifService.ts:41-74 | the sequential loop builds exactly the frames of the reference definition, stopping at the first capture failure |
| Gif.CreateGif | services/gifService.ts:3-90 | no valid source fails before any drawing; a missing context, a capture failure or zero frames fails; otherwise the encoder gets 512×512 and between one frame and one per valid source; errors and the encoder's result pass through unchanged |
| Gif.SkipsUndecodable | services/gifService.ts:22-74 | a failed load between two good images yields exactly their two frames, in order |
| Gif.CaptureFailureAborts | services/gifService.ts:69 | a capture failure after a good frame fails the whole loop with that error |
| GalleryView.Remove | components/Gallery.tsx:46 | removing an id keeps exactly the other ids, without introducing repeats |
| GalleryView.Toggle | components/Gallery.tsx:43-51 | the id becomes selected exactly when it was not, no other id is affected, and the selection stays free of repeats |
| GalleryView.ToggleTwice | components/Gallery.tsx:43-51 | toggling twice restores the selected set, and restores the exact order when the id was absent |
| GalleryView.Next | components/Gallery.tsx:90-94 | the index advances exactly when it is below `len - 1`, and a valid index stays valid |
| GalleryView.Prev | components/Gallery.tsx:96-100 | the index goes back exactly when it is above 0, and a valid index stays valid |
| GalleryView.Clamp | components/Gallery.tsx:35-41 | an index past the end becomes `len - 1`, an empty gallery gives -1, and a valid index is kept |
| GalleryView.ClampIdempotent | components/Gallery.tsx:35-41 | running the clamp effect again changes nothing |
| GalleryView.ClassifySwipe | components/Gallery.tsx:112-125 | a missing or zero coordinate never navigates; otherwise a distance `start - end` over 50 goes forward and one under -50 goes back |
| GalleryView.OnTouchEnd | components/Gallery.tsx:112-125 | only the index can change, a valid index stays valid, and no swipe changes nothing |
| GalleryView.OnTouchStart | components/Gallery.tsx:103-106 | a new touch records its start and clears the end, so it is no swipe until it moves; nothing else changes |
| GalleryView.OnTouchMove | components/Gallery.tsx:108-110 | a move records the latest position and keeps the start; nothing else changes |
| GalleryView.SwipeGesture | components/Gallery.tsx:103-125 | a touch at `a` moved to `b` goes forward when `a - b > 50`, back when `a - b < -50`, and nowhere when either is 0 |
| GalleryView.TapDoesNotNavigate | components/Gallery.tsx:103-110 | a touch that starts and ends without a move never navigates, because the start clears the end |
| GalleryView.Confirm | components/Gallery.tsx:68-79 | the dialog closes; an edit is requested exactly when editing with one selected id; a video passes the prompt; a GIF passes none |
| GalleryView.ActionClick | components/Gallery.tsx:62-66 | an action opens the dialog with an empty prompt and keeps the selection and the view |
| GalleryView.ConfirmUntyped | components/Gallery.tsx:62-79 | confirming without typing sends an empty instruction for an edit and an empty prompt for a video |
| GalleryView.InternalBack | components/Gallery.tsx:81-87 | back from the detail view closes it and stays; back from the grid leaves the gallery |
| GalleryView.BackTwiceLeaves | components/Gallery.tsx:81-87 | from the detail view the first back closes it and the second leaves the gallery |
| GalleryView.TileClick | components/Gallery.tsx:241-248 | a non-empty selection toggles the tile; otherwise the tile opens at its index |
| GalleryView.CircleClick | components/Gallery.tsx:258-261 | the selection circle always toggles |
| GalleryView.BulkDelete | components/Gallery.tsx:299-304 | an accepted `delete_confirm` dialog gives one delete per selected id in selection order, then an empty selection; a declined one changes nothing |
| GalleryView.DetailDelete | components/Gallery.tsx:53-60 | an accepted `delete_confirm` dialog requests that one deletion, and the view closes when the gallery had at most one item; a declined one changes nothing |
| App.DetailDeleteKeepsValidIndex | components/Gallery.tsx:35-60 | deleting the viewed artifact shrinks the gallery, and the clamp effect then leaves a valid index, or -1 once the gallery is empty |
| App.DeclinedDeleteChangesNothing | components/Gallery.tsx:199-203 | declining the delete dialog, in the detail view or for a selection, leaves the view and the application unchanged |
| App.MessagesFor | App.tsx:96 | the quota message is the limit-reached and limit-description translations joined by ": ", which reads `error_limit_reached: error_limit_desc` for a catalog without them |
| App.LimitMessageShown | App.tsx:93-97 | a generation refused by the quota shows the two translated limit texts joined by ": " |
| App.Increment | App.tsx:103-116 | a non-guest is left entirely alone; for a guest only the usage record and the shown counter change, the record is the incremented one and the counter shows its new count |
| App.IncrementShownMatchesStored | App.tsx:64-72 | after an increment the guest counter on screen equals what a reload reads back from storage |
| App.AddArtifact | App.tsx:172 | a new artifact goes in front, and nothing but the session changes |
| App.DeleteImage | App.tsx:135-137 | deletion removes that id's entries, and nothing but the session changes |
| App.HandleGenerate | App.tsx:149-187 | no photo does nothing; a gate closed on the start day only sets the quota message and calls nothing; otherwise the avatar call gets the photo's data-URL parts; success prepends one image of the selected style, counts one use on the end day and shows the gallery; failure leaves gallery and quota alone |
| App.FindById | App.tsx:194 | the first gallery entry with that id, and none exactly when no entry has it |
| App.HandleEdit | App.tsx:190-234 | the gate (start day) comes before the lookup; an unknown id changes nothing; success prepends one image that keeps the original's style and counts one use on the end day; failure shows the extracted error with the error status and leaves gallery and quota alone |
| App.EditThenDeleteRestores | App.tsx:214-223 | a successful edit adds exactly one artifact: deleting its fresh id gives back the gallery |
| App.References | App.tsx:240-247 | the references are exactly the selected gallery entries that are not videos and have a non-empty url |
| App.ReferencesConcat | App.tsx:240-247 | reference selection works piecewise, so references follow gallery order rather than selection order |
| App.HandleCreate | App.tsx:237-315 | no ids do nothing; a video checks the gate on the start day first, then needs one reference, and a success adds the video, shows it, sets success and counts one use on the end day; a GIF needs two references and a success shows its preview with success status; a started job that fails shows the generic text and the error with the error status; failing guards set a message and call nothing; a GIF never touches quota or gallery |
| App.JobFailure | App.tsx:281 | a video or GIF failure message begins with the generic text and a space, and a thrown string follows it unchanged |
| App.EmptyPromptMeansGif | App.tsx:242 | an empty video prompt is falsy and takes the GIF branch |
| App.VideoOnlySelection | App.tsx:240-252 | a selection holding only a video yields no reference and asks for a different selection |
| App.DeleteEach | components/Gallery.tsx:302 | deleting ids one after another gives the gallery of one deletion per id, and the user and loaded flag are unchanged |
| App.Handle | App.tsx:492-497 | an edit request goes to the edit handler and a create request to the GIF/video handler; a delete request removes the listed ids without a remote call, and back returns home |
| App.BulkDeleteRemovesSelection | components/Gallery.tsx:299-304 | bulk delete removes every selected artifact, keeps the survivors in order and empties the selection |
| App.EmptyVideoPromptMakesGif | components/Gallery.tsx:74-75 | confirming a video with an empty prompt ends in the GIF handler |
| App.UserChanged | App.tsx:42-73 | a user change runs the load and save effects, and a guest's shown counter is read back from storage |
| App.GeneratedImageIsSaved | App.tsx:76-81 | a successful generation for a loaded user is written to that user's slot |
| App.GuestLoginIsQuotaLimited | App.tsx:86 | every guest identity is subject to the daily quota |
| App.MidnightRestartsCount | App.tsx:88-111 | a job that passes the gate before midnight and succeeds after it starts the new day's count at 1 |
| App.AvatarFailureShown | App.tsx:180-182 | a failed avatar generation shows the service's fixed failure message |
| App.VideoFailureShown | App.tsx:280-281 | the failure text of a wrapped video error is the generic text, then "Failed to generate video. " and the inner message |
| App.VideoJobFailureShown | App.tsx:280-282 | a video job whose service call fails shows that text with the error status |
| App.LogoutWritesNothing | App.tsx:42-46 | logging out empties the gallery, clears the loaded flag and writes no storage slot |

## Left out

- Rendering: JSX and CSS, plus the Header, LoginView, StyleSelector, ProcessingOverlay and ActionButton components. None of them holds logic beyond display.
- CameraView, `handleCapture`, `handleFileUpload` and `closePreview`: these are browser media and file APIs. The captured photo is simply part of the state.
- Remote calls: the `GoogleGenAI` requests, the `window.aistudio` key prompts and the video fetch. Their results are parameters.
- The text prompts and system instruction sent by `generateAvatar` and `editAvatar`. Only the style description table is modelled.
- Timers: the five-second wait between status checks and the two-second reset of the status to idle. The polling loop runs over a given finite trace of replies instead of waiting without bound.
- Concurrency: async interleaving and overlapping jobs. Each handler is modelled from its call to the moment its awaited call settles.
- The contain-scale and centering arithmetic of the GIF canvas. It is floating-point geometry, and drawing is an oracle.
- Browser primitives: `JSON.parse`, `atob`, `decodeURIComponent`, `Date.now`, `toDateString` and `URL.createObjectURL`. Parsed values, dates and ids are parameters.
- Storage internals: storage is a map from key to parsed value. A `guest_usage` value that `JSON.parse` rejects would throw, and is not modelled.
- The TypeErrors thrown when a response candidate lacks `content` or `parts`. The parts are always present in the model.
- A thrown `null` or `undefined`: `extractErrorMessage` would return the generic message. Thrown values here are a string or an object.
- The Google Sign-In initialisation effect and `disableAutoSelect`. They are SDK calls.
- `$` patterns in `String.replace`: replacement values are taken literally.
- Numeric parameter values: parameters are strings, and number-to-string conversion of parameters is not modelled.
- An undotted translation key that names a category object, and a dotted key whose category is a plain string. Both index into JavaScript objects in ways that have no string result.
- Language.Translate: it is stated for the no-parameter case only. The parameter case is covered by Language.SubstituteSnoc, Language.OnlyFirstOccurrence and Language.ChainedSubstitution.
- ClassifySwipe: touch coordinates are exact real numbers; the floating-point rounding of `touchStart - touchEnd` is not modelled.
- The guest-limit button disabling in the UI. The gate in the handlers is what enforces the limit.

=== FILE: app.dfy ===
/** The application controller (App.tsx): the generate, edit, video/GIF and
    delete handlers over the gallery, the guest quota and the persistence
    effects. Each handler is modelled from its call to the moment the awaited
    service call has settled; the service's result is part of the
    environment, and the handler reports which service call it issued. */
module App {
  import opened Wrappers
  import opened Text
  import opened Types
  import opened Errors
  import opened Quota
  import opened GalleryStore
  import DataUrl
  import Language
  import GalleryView
  import Auth
  import Gemini

  datatype Screen = Home | Camera | GalleryScreen

  datatype AppState = AppState(
    session: Session,
    usage: Option<UsageRecord>,
    guestUsage: int,
    captured: Option<string>,
    style: AvatarStyleId,
    removeBackground: bool,
    status: ProcessingStatus,
    error: Option<string>,
    screen: Screen,
    gifPreview: Option<string>,
    videoPreview: Option<string>)

  /** The translated messages the handlers show. */
  datatype Messages = Messages(limitReached: string, selectImages: string, generic: string)

  /** `${t('error_limit_reached')}: ${t('error_limit_desc')}`,
      `t('error_select_images')` and `t('error_generic')`. */
  function MessagesFor(catalog: Language.Catalog): (m: Messages)
    ensures m.limitReached == Language.Lookup(catalog, "error_limit_reached") + ": " + Language.Lookup(catalog, "error_limit_desc")
    ensures m.selectImages == Language.Lookup(catalog, "error_select_images")
    ensures m.generic == Language.Lookup(catalog, "error_generic")
    // Untranslated keys show through: a catalog without the two limit
    // entries reads the keys themselves.
    ensures "error_limit_reached" !in catalog.entries && "error_limit_desc" !in catalog.entries ==>
      m.limitReached == "error_limit_reached: error_limit_desc"
  {
    Language.LookupUntranslated(catalog, "error_limit_reached");
    Language.LookupUntranslated(catalog, "error_limit_desc");
    Messages(Language.Lookup(catalog, "error_limit_reached") + ": " + Language.Lookup(catalog, "error_limit_desc"),
             Language.Lookup(catalog, "error_select_images"),
             Language.Lookup(catalog, "error_generic"))
  }

  /** What a handler needs from outside: messages; `toDateString()` as the
      quota gate reads it, before the awaited call (`startDay`), and as the
      increment reads it, after the call (`endDay`), which differ when the
      job crosses midnight; `Date.now()` and its string form for the new
      artifact; and what the awaited service call settled to. */
  datatype Env = Env(messages: Messages, startDay: string, endDay: string, now: int, newId: string,
                     outcome: Result<string, ErrorValue>)

  /** The service call a handler issued, with its arguments. */
  datatype Call =
    | AvatarCall(data: Option<string>, mime: Option<string>, style: AvatarStyleId, removeBackground: bool)
    | EditCall(data: Option<string>, mimeType: string, instruction: string)
    | VideoCall(urls: seq<string>, prompt: string)
    | GifCall(urls: seq<string>)

  datatype Step = Step(app: AppState, call: Option<Call>)

  function Gate(a: AppState, today: string): bool {
    CheckGuestLimit(a.session.user, today, a.usage)
  }

  /** `incrementGuestUsage`, including the usage counter shown to guests. */
  function Increment(a: AppState, today: string): (r: AppState)
    ensures r == a.(usage := r.usage, guestUsage := r.guestUsage)
    ensures r.usage == IncrementGuestUsage(a.session.user, today, a.usage)
    ensures IsGuest(a.session.user) ==> r.guestUsage == r.usage.value.count.value
    ensures !IsGuest(a.session.user) ==> r == a
  {
    var usage := IncrementGuestUsage(a.session.user, today, a.usage);
    if IsGuest(a.session.user) then a.(usage := usage, guestUsage := usage.value.count.value)
    else a
  }

  /** A new artifact goes in front, and the save effect follows. */
  function AddArtifact(a: AppState, image: GeneratedImage): (r: AppState)
    ensures r.session.gallery == Prepend(a.session.gallery, image)
    ensures r == a.(session := r.session)
  {
    a.(session := Mutate(a.session, Prepend(a.session.gallery, image)))
  }

  /** `handleDeleteImage`. */
  function DeleteImage(a: AppState, id: string): (r: AppState)
    ensures r.session.gallery == DeleteById(a.session.gallery, id)
    ensures r == a.(session := r.session)
  {
    a.(session := Mutate(a.session, DeleteById(a.session.gallery, id)))
  }

  /** `handleGenerate`: nothing without a captured photo; the quota gate
      next; then the avatar call with the photo's data-URL parts. Success
      prepends one image of the selected style and counts one use; failure
      reports the error and leaves gallery and quota alone. */
  function HandleGenerate(a: AppState, env: Env): (r: Step)
    ensures !Truthy(a.captured) ==> r == Step(a, None)
    ensures Truthy(a.captured) && !Gate(a, env.startDay) ==> r == Step(a.(error := Some(env.messages.limitReached)), None)
    ensures Truthy(a.captured) && Gate(a, env.startDay) ==>
      r.call == Some(AvatarCall(Piece(a.captured.value, ',', 1), RawMimeOf(a.captured.value), a.style, a.removeBackground))
    ensures Truthy(a.captured) && Gate(a, env.startDay) && env.outcome.Ok? ==>
      r.app.session.gallery == [GeneratedImage(env.newId, env.outcome.value, env.now, Some(a.style), Some(Image))] + a.session.gallery &&
      r.app.usage == IncrementGuestUsage(a.session.user, env.endDay, a.usage) &&
      r.app.captured.None? && r.app.status == Success && r.app.screen == GalleryScreen
    ensures env.outcome.Err? ==> r.app.session == a.session && r.app.usage == a.usage
    ensures Truthy(a.captured) && Gate(a, env.startDay) && env.outcome.Err? ==>
      r.app == a.(error := Some(ExtractErrorMessage(env.outcome.error, env.messages.generic)), status := Error)
  {
    if !Truthy(a.captured) then Step(a, None)
    else if !Gate(a, env.startDay) then Step(a.(error := Some(env.messages.limitReached)), None)
    else
      var photo := a.captured.value;
      var call := AvatarCall(Piece(photo, ',', 1), RawMimeOf(photo), a.style, a.removeBackground);
      var started := a.(status := GeneratingAvatar, error := None);
      match env.outcome
      case Ok(url) =>
        var image := GeneratedImage(env.newId, url, env.now, Some(a.style), Some(Image));
        var added := AddArtifact(started, image).(captured := None);
        Step(Increment(added, env.endDay).(status := Success, screen := GalleryScreen), Some(call))
      case Err(e) =>
        Step(started.(error := Some(ExtractErrorMessage(e, env.messages.generic)), status := Error), Some(call))
  }

  /** `capturedImage.split(';')[0].split(':')[1]`, without a default. */
  function RawMimeOf(url: string): Option<string> {
    DataUrl.RawMime(url)
  }

  /** `gallery.find(img => img.id === id)`: the first entry with that id. */
  function FindById(g: Gallery, id: string): (r: Option<GeneratedImage>)
    ensures r.Some? ==> r.value in g && r.value.id == id
    ensures r.None? <==> forall k :: 0 <= k < |g| ==> g[k].id != id
    ensures r.Some? ==> exists k :: 0 <= k < |g| && g[k] == r.value && forall j :: 0 <= j < k ==> g[j].id != id
  {
    if |g| == 0 then None
    else if g[0].id == id then Some(g[0])
    else
      var r := FindById(g[1..], id);
      assert forall k :: 1 <= k < |g| ==> g[k] == g[1..][k - 1];
      if r.Some? then
        var k :| 0 <= k < |g[1..]| && g[1..][k] == r.value && forall j :: 0 <= j < k ==> g[1..][j].id != id;
        assert g[k + 1] == r.value;
        r
      else r
  }

  /** `handleEditImage`: the quota gate comes before the lookup; an unknown
      id does nothing at all; otherwise the edit call gets the original's
      data-URL parts, and success prepends one image that keeps the
      original's style. */
  function HandleEdit(a: AppState, id: string, instruction: string, env: Env): (r: Step)
    ensures !Gate(a, env.startDay) ==> r == Step(a.(error := Some(env.messages.limitReached)), None)
    ensures Gate(a, env.startDay) && FindById(a.session.gallery, id).None? ==> r == Step(a, None)
    ensures Gate(a, env.startDay) && FindById(a.session.gallery, id).Some? ==>
      var original := FindById(a.session.gallery, id).value;
      r.call == Some(EditCall(DataUrl.Payload(original.url), DataUrl.Mime(original.url), instruction))
    ensures r.call.Some? && env.outcome.Ok? ==>
      var original := FindById(a.session.gallery, id).value;
      r.app.session.gallery == [GeneratedImage(env.newId, env.outcome.value, env.now, original.style, Some(Image))] + a.session.gallery &&
      r.app.usage == IncrementGuestUsage(a.session.user, env.endDay, a.usage) &&
      r.app.status == Success
    ensures env.outcome.Err? ==> r.app.session == a.session && r.app.usage == a.usage
    ensures Gate(a, env.startDay) && FindById(a.session.gallery, id).Some? && env.outcome.Err? ==>
      r.app == a.(error := Some(ExtractErrorMessage(env.outcome.error, env.messages.generic)), status := Error)
  {
    if !Gate(a, env.startDay) then Step(a.(error := Some(env.messages.limitReached)), None)
    else match FindById(a.session.gallery, id)
      case None => Step(a, None)
      case Some(original) =>
        var call := EditCall(DataUrl.Payload(original.url), DataUrl.Mime(original.url), instruction);
        var started := a.(status := EditingImage, error := None);
        match env.outcome
        case Ok(url) =>
          var image := GeneratedImage(env.newId, url, env.now, original.style, Some(Image));
          Step(Increment(AddArtifact(started, image), env.endDay).(status := Success), Some(call))
        case Err(e) =>
          Step(started.(error := Some(ExtractErrorMessage(e, env.messages.generic)), status := Error), Some(call))
  }

  /** An artifact that can steer a video or become a GIF frame: not a video,
      and with a non-empty url. */
  predicate Referenceable(x: GeneratedImage) {
    x.mediaType != Some(Video) && x.url != ""
  }

  /** The selected, referenceable artifacts, in gallery order. */
  function References(g: Gallery, ids: seq<string>): (r: Gallery)
    ensures |r| <= |g|
    ensures forall x :: x in r <==> x in g && x.id in ids && Referenceable(x)
  {
    if |g| == 0 then []
    else
      var rest := References(g[1..], ids);
      assert forall x :: x in g <==> x == g[0] || x in g[1..];
      if g[0].id in ids && Referenceable(g[0]) then [g[0]] + rest else rest
  }

  /** Selection follows gallery order, not selection order. */
  lemma {:induction false} ReferencesConcat(a: Gallery, b: Gallery, ids: seq<string>)
    ensures References(a + b, ids) == References(a, ids) + References(b, ids)
  {
    if |a| > 0 {
      assert (a + b)[1..] == a[1..] + b;
      ReferencesConcat(a[1..], b, ids);
    } else {
      assert a + b == b;
    }
  }

  function Urls(g: Gallery): (r: seq<string>)
    ensures |r| == |g| && forall k :: 0 <= k < |g| ==> r[k] == g[k].url
  {
    if |g| == 0 then [] else [g[0].url] + Urls(g[1..])
  }

  /** `${t('error_generic')} ${extractErrorMessage(err)}`: the generic text,
      a space, then what was thrown. */
  function JobFailure(e: ErrorValue, m: Messages): (r: string)
    ensures StartsWith(r, m.generic + " ")
    ensures e.Thrown? ==> r == m.generic + " " + e.text
  {
    StartsWithConcat(m.generic + " ", ExtractErrorMessage(e, m.generic));
    m.generic + " " + ExtractErrorMessage(e, m.generic)
  }

  /** `handleCreateGifOrVideo`. A truthy prompt means a video: quota gate,
      then at least one reference; success prepends one video and counts one
      use. Otherwise a GIF: at least two references, no quota and no gallery
      change, only a preview. */
  function HandleCreate(a: AppState, ids: seq<string>, prompt: Option<string>, env: Env): (r: Step)
    ensures |ids| == 0 ==> r == Step(a, None)
    ensures |ids| > 0 && Truthy(prompt) && !Gate(a, env.startDay) ==>
      r == Step(a.(error := Some(env.messages.limitReached)), None)
    ensures |ids| > 0 && Truthy(prompt) && Gate(a, env.startDay) && |References(a.session.gallery, ids)| == 0 ==>
      r == Step(a.(error := Some(env.messages.selectImages)), None)
    ensures |ids| > 0 && Truthy(prompt) && Gate(a, env.startDay) && |References(a.session.gallery, ids)| > 0 ==>
      r.call == Some(VideoCall(Urls(References(a.session.gallery, ids)), prompt.value)) &&
      (env.outcome.Ok? ==>
        r.app.session.gallery == [GeneratedImage(env.newId, env.outcome.value, env.now, None, Some(Video))] + a.session.gallery &&
        r.app.usage == IncrementGuestUsage(a.session.user, env.endDay, a.usage) &&
        r.app.videoPreview == Some(env.outcome.value) &&
        r.app.status == Success)
    ensures |ids| > 0 && !Truthy(prompt) && |References(a.session.gallery, ids)| < 2 ==>
      r == Step(a.(error := Some(env.messages.selectImages)), None)
    ensures |ids| > 0 && !Truthy(prompt) && |References(a.session.gallery, ids)| >= 2 ==>
      r.call == Some(GifCall(Urls(References(a.session.gallery, ids))))
    ensures |ids| > 0 && !Truthy(prompt) && |References(a.session.gallery, ids)| >= 2 && env.outcome.Ok? ==>
      r.app.gifPreview == Some(env.outcome.value) && r.app.status == Success
    // A video or GIF job that was started and failed shows the generic text
    // with the error.
    ensures r.call.Some? && env.outcome.Err? ==>
      r.app.error == Some(JobFailure(env.outcome.error, env.messages)) && r.app.status == Error
    ensures !Truthy(prompt) ==> r.app.session == a.session && r.app.usage == a.usage
    ensures env.outcome.Err? ==> r.app.session == a.session && r.app.usage == a.usage
  {
    if |ids| == 0 then Step(a, None)
    else
      var valid := References(a.session.gallery, ids);
      if Truthy(prompt) then
        if !Gate(a, env.startDay) then Step(a.(error := Some(env.messages.limitReached)), None)
        else if |valid| == 0 then Step(a.(error := Some(env.messages.selectImages)), None)
        else
          var call := VideoCall(Urls(valid), prompt.value);
          var started := a.(status := GeneratingVideo, error := None);
          match env.outcome
          case Ok(url) =>
            var video := GeneratedImage(env.newId, url, env.now, None, Some(Video));
            Step(Increment(AddArtifact(started, video), env.endDay).(videoPreview := Some(url), status := Success), Some(call))
          case Err(e) =>
            Step(started.(error := Some(JobFailure(e, env.messages)), status := Error), Some(call))
      else
        if |valid| < 2 then Step(a.(error := Some(env.messages.selectImages)), None)
        else
          var call := GifCall(Urls(valid));
          var started := a.(status := GeneratingGif);
          match env.outcome
          case Ok(objectUrl) => Step(started.(gifPreview := Some(objectUrl), status := Success), Some(call))
          case Err(e) => Step(started.(error := Some(JobFailure(e, env.messages)), status := Error), Some(call))
  }

  /** An empty prompt is falsy, so a video request without one takes the GIF
      branch. */
  lemma EmptyPromptMeansGif(a: AppState, ids: seq<string>, env: Env)
    ensures HandleCreate(a, ids, Some(""), env) == HandleCreate(a, ids, None, env)
  {
  }

  /** A selection holding only a video: the video cannot be a
      reference, so no video is requested. */
  lemma VideoOnlySelection(a: AppState, v: GeneratedImage, prompt: string, env: Env)
    requires a.session.gallery == [v] && v.mediaType == Some(Video)
    requires prompt != "" && Gate(a, env.startDay)
    ensures HandleCreate(a, [v.id], Some(prompt), env) == Step(a.(error := Some(env.messages.selectImages)), None)
  {
    assert References([v], [v.id]) == [];
  }

  /** `deleteImage` applied once per requested id, in order. */
  function DeleteEach(a: AppState, ids: seq<string>): (r: AppState)
    ensures r.session.gallery == DeleteAll(a.session.gallery, ids)
    ensures r.session.user == a.session.user && r.session.loaded == a.session.loaded
    ensures r == a.(session := r.session)
    decreases |ids|
  {
    if |ids| == 0 then a else DeleteEach(DeleteImage(a, ids[0]), ids[1..])
  }

  /** The application's answer to a request of the gallery screen. */
  function Handle(a: AppState, request: GalleryView.Request, env: Env): (r: Step)
    ensures request.NoRequest? ==> r == Step(a, None)
    ensures request.DeleteRequests? ==> r.call.None? && r.app.session.gallery == DeleteAll(a.session.gallery, request.ids)
    ensures request.BackRequest? ==> r == Step(a.(screen := Home), None)
    ensures request.EditRequest? ==> r == HandleEdit(a, request.id, request.instruction, env)
    ensures request.CreateRequest? ==> r == HandleCreate(a, request.ids, request.prompt, env)
  {
    match request
    case NoRequest => Step(a, None)
    case EditRequest(id, instruction) => HandleEdit(a, id, instruction, env)
    case CreateRequest(ids, prompt) => HandleCreate(a, ids, prompt, env)
    case DeleteRequests(ids) => Step(DeleteEach(a, ids), None)
    case BackRequest => Step(a.(screen := Home), None)
  }

  /** Bulk delete on the gallery screen removes every selected artifact and
      nothing else, keeping the survivors in order, and empties the
      selection. */
  lemma BulkDeleteRemovesSelection(a: AppState, v: GalleryView.ViewState, env: Env)
    ensures var (v', request) := GalleryView.BulkDelete(v, true);
            v'.selected == [] &&
            Handle(a, request, env).app.session.gallery == Without(a.session.gallery, v.selected)
  {
    DeleteAllIsWithout(a.session.gallery, v.selected);
  }

  /** Confirming a video with an empty prompt produces a GIF. */
  lemma EmptyVideoPromptMakesGif(a: AppState, v: GalleryView.ViewState, env: Env)
    requires v.action == GalleryView.VideoAction && v.prompt == ""
    ensures Handle(a, GalleryView.Confirm(v).1, env) == HandleCreate(a, v.selected, None, env)
  {
  }

  /** A user change: the load and save effects, and for a guest the usage
      counter read back from storage. */
  function UserChanged(a: AppState, user: Option<User>, today: string): (r: AppState)
    ensures r.session == SwitchUser(a.session, user)
    ensures IsGuest(user) ==> r.guestUsage == DisplayedUsage(today, a.usage)
    ensures !IsGuest(user) ==> r.guestUsage == a.guestUsage
  {
    var switched := a.(session := SwitchUser(a.session, user));
    if IsGuest(user) then switched.(guestUsage := DisplayedUsage(today, a.usage)) else switched
  }

  /** A successful generation is persisted for the signed-in user whose
      gallery has loaded. */
  lemma GeneratedImageIsSaved(a: AppState, env: Env)
    requires Truthy(a.captured) && Gate(a, env.startDay) && env.outcome.Ok?
    requires a.session.user.Some? && a.session.loaded
    ensures var s := HandleGenerate(a, env).app.session;
            SlotKey(a.session.user.value.id) in s.slots &&
            s.slots[SlotKey(a.session.user.value.id)] == Parsed(s.gallery)
  {
  }

  /** Every guest identity the sign-in layer creates is subject to the
      daily quota. */
  lemma GuestLoginIsQuotaLimited(s: Auth.AuthState, now: nat)
    ensures IsGuest(Auth.LoginAsGuest(s, now).user)
  {
  }

  /** A job that starts before midnight and ends after it: the gate reads
      the old day's count, the increment starts the new day at 1. */
  lemma MidnightRestartsCount(a: AppState, env: Env)
    requires Truthy(a.captured) && IsGuest(a.session.user) && env.outcome.Ok?
    requires a.usage == Some(UsageRecord(Some(env.startDay), Some(GuestDailyLimit - 1)))
    requires env.endDay != env.startDay
    ensures HandleGenerate(a, env).app.usage == Some(UsageRecord(Some(env.endDay), Some(1)))
    ensures HandleGenerate(a, env).app.guestUsage == 1
  {
  }

  /** A failed avatar generation shows the service's fixed message. */
  lemma AvatarFailureShown(reply: Gemini.Reply<Gemini.Response>, generic: string)
    requires Gemini.GenerateAvatarResult(reply).Err?
    ensures ExtractErrorMessage(Gemini.GenerateAvatarResult(reply).error, generic) == Gemini.AvatarFailureMessage
  {
    ExtractOfJsError(Gemini.AvatarFailureMessage, generic);
  }

  /** A failed video shows the generic text followed by the service's
      wrapped message. */
  lemma VideoFailureShown(e: ErrorValue, m: Messages)
    ensures JobFailure(Gemini.WrapVideoError(e), m) == m.generic + " " + Gemini.VideoFailurePrefix + MessageText(e)
  {
    assert Gemini.VideoFailurePrefix + MessageText(e) != "" by {
      assert |Gemini.VideoFailurePrefix| > 0;
    }
    ExtractOfJsError(Gemini.VideoFailurePrefix + MessageText(e), m.generic);
    assert m.generic + " " + (Gemini.VideoFailurePrefix + MessageText(e)) == m.generic + " " + Gemini.VideoFailurePrefix + MessageText(e);
  }

  /** Logging out clears the gallery and writes no storage slot. */
  lemma LogoutWritesNothing(a: AppState, auth: Auth.AuthState, today: string)
    ensures var r := UserChanged(a, Auth.Logout(auth).user, today);
      r.session.slots == a.session.slots && r.session.gallery == [] && !r.session.loaded
  {
    SwitchUserStorage(a.session, None);
  }

  /** Deleting the artifact shown in the detail view, then running the
      index-clamp effect on the new gallery, leaves a valid index, or -1
      when the gallery became empty. */
  lemma DetailDeleteKeepsValidIndex(a: AppState, v: GalleryView.ViewState, env: Env)
    requires 0 <= v.index < |a.session.gallery|
    ensures var g := a.session.gallery;
      var (v', request) := GalleryView.DetailDelete(v, |g|, g[v.index].id, true);
      var g' := Handle(a, request, env).app.session.gallery;
      var i := GalleryView.Clamp(v'.index, |g'|);
      |g'| < |g| &&
      (|g'| == 0 ==> i == -1) &&
      (|g'| > 0 ==> 0 <= i < |g'|)
  {
    var g := a.session.gallery;
    var id := g[v.index].id;
    var (v', request) := GalleryView.DetailDelete(v, |g|, id, true);
    var g' := Handle(a, request, env).app.session.gallery;
    assert g' == DeleteAll(g, [id]);
    assert DeleteAll(g, [id]) == DeleteAll(DeleteById(g, id), []);
    DeleteShrinks(g, id, v.index);
  }

  /** The quota message a handler shows is the translated limit title and
      description joined by ": ". */
  lemma LimitMessageShown(a: AppState, catalog: Language.Catalog, env: Env)
    requires env.messages == MessagesFor(catalog)
    requires Truthy(a.captured) && !Gate(a, env.startDay)
    ensures HandleGenerate(a, env).app.error ==
      Some(Language.Lookup(catalog, "error_limit_reached") + ": " + Language.Lookup(catalog, "error_limit_desc"))
  {
  }

  /** After a successful increment the guest counter on screen is what a
      reload would read back from storage. */
  lemma IncrementShownMatchesStored(a: AppState, today: string)
    requires IsGuest(a.session.user)
    ensures var r := Increment(a, today);
      UserChanged(r, a.session.user, today).guestUsage == r.guestUsage
  {
  }

  /** A successful edit adds exactly one artifact: deleting it again gives
      back the gallery as it was. */
  lemma EditThenDeleteRestores(a: AppState, id: string, instruction: string, env: Env)
    requires Gate(a, env.startDay) && FindById(a.session.gallery, id).Some? && env.outcome.Ok?
    requires forall k :: 0 <= k < |a.session.gallery| ==> a.session.gallery[k].id != env.newId
    ensures DeleteById(HandleEdit(a, id, instruction, env).app.session.gallery, env.newId) == a.session.gallery
  {
    var original := FindById(a.session.gallery, id).value;
    var image := GeneratedImage(env.newId, env.outcome.value, env.now, original.style, Some(Image));
    DeleteUndoesPrepend(a.session.gallery, image);
  }

  /** A failed video job shows the generic text followed by the video
      service's wrapped message. */
  lemma VideoJobFailureShown(a: AppState, ids: seq<string>, prompt: string, env: Env, e: ErrorValue)
    requires |ids| > 0 && prompt != "" && Gate(a, env.startDay)
    requires |References(a.session.gallery, ids)| > 0
    requires env.outcome == Err(Gemini.WrapVideoError(e))
    ensures var r := HandleCreate(a, ids, Some(prompt), env);
      r.app.error == Some(env.messages.generic + " " + Gemini.VideoFailurePrefix + MessageText(e)) &&
      r.app.status == Error
  {
    VideoFailureShown(e, env.messages);
  }

  /** Declining the `delete_confirm` dialog changes nothing, from the detail
      view or from the bulk selection. */
  lemma DeclinedDeleteChangesNothing(a: AppState, v: GalleryView.ViewState, len: nat, id: string, env: Env)
    ensures GalleryView.DetailDelete(v, len, id, false).0 == v
    ensures Handle(a, GalleryView.DetailDelete(v, len, id, false).1, env) == Step(a, None)
    ensures GalleryView.BulkDelete(v, false).0 == v
    ensures Handle(a, GalleryView.BulkDelete(v, false).1, env) == Step(a, None)
  {
  }
}

=== FILE: auth.dfy ===
/** Identity handling (contexts/AuthContext.tsx): the guest identity, the
    preparation of a JWT payload segment for base64 decoding, and the
    login/logout state changes. Base64 decoding, percent-decoding and JSON
    parsing of the payload are one parameter, `decode`. */
module Auth {
  import opened Wrappers
  import opened Text
  import opened Types

  /** The claims the application reads from a Google ID token. */
  datatype Claims = Claims(sub: string, name: string, email: string, picture: string)

  /** The signed-in user and the copy kept under the `sunny_user` storage key. */
  datatype AuthState = AuthState(user: Option<User>, stored: Option<User>, isLoading: bool)

  const InitialAuth: AuthState := AuthState(None, None, true)

  const GuestIdPrefix: string := "guest-"

  /** `token.split('.')[1]`: the payload segment of a JWS compact
      serialisation (section 7.1 of RFC 7515). */
  function PayloadSegment(token: string): (r: Option<string>)
    ensures r.Some? <==> '.' in token
    ensures r.Some? ==> '.' !in r.value
    ensures '.' in token ==> r == Some(UpToSep(token[FirstIndex(token, '.') + 1..], '.'))
  {
    SecondPiece(token, '.');
    Piece(token, '.', 1)
  }

  /** The base64url alphabet of section 5 of RFC 4648 mapped back to the
      standard base64 alphabet: `-` becomes `+`, `_` becomes `/`. */
  function UrlCharToStd(c: char): char {
    if c == '-' then '+' else if c == '_' then '/' else c
  }

  /** The inverse mapping, standard base64 to base64url. */
  function StdCharToUrl(c: char): char {
    if c == '+' then '-' else if c == '/' then '_' else c
  }

  /** `.replace(/-/g, '+').replace(/_/g, '/')`. */
  function Base64UrlToBase64(s: string): (r: string)
    ensures |r| == |s|
    ensures forall i :: 0 <= i < |s| ==> r[i] == UrlCharToStd(s[i])
    ensures '-' !in r && '_' !in r
  {
    if |s| == 0 then "" else [UrlCharToStd(s[0])] + Base64UrlToBase64(s[1..])
  }

  function Base64ToBase64Url(s: string): (r: string)
    ensures |r| == |s|
    ensures forall i :: 0 <= i < |s| ==> r[i] == StdCharToUrl(s[i])
  {
    if |s| == 0 then "" else [StdCharToUrl(s[0])] + Base64ToBase64Url(s[1..])
  }

  /** Every other character is left alone. */
  lemma UrlToStdKeepsOthers(s: string, i: nat)
    requires i < |s| && s[i] != '-' && s[i] != '_'
    ensures Base64UrlToBase64(s)[i] == s[i]
  {
  }

  /** Undoing the mapping restores a base64url text that carries no
      standard-alphabet `+` or `/`. */
  lemma UrlRoundTrip(s: string)
    requires '+' !in s && '/' !in s
    ensures Base64ToBase64Url(Base64UrlToBase64(s)) == s
  {
  }

  /** `decodeJwt`: a token without a second segment or whose segment fails
      to decode yields `None` (JavaScript's `null`). */
  function DecodeJwt(token: string, decode: string -> Option<Claims>): (r: Option<Claims>)
    ensures '.' !in token ==> r.None?
    ensures '.' in token ==> r == decode(Base64UrlToBase64(PayloadSegment(token).value))
  {
    match PayloadSegment(token)
    case None => None
    case Some(segment) => decode(Base64UrlToBase64(segment))
  }

  /** The user record is kept in memory and in storage alike. */
  function HandleLogin(s: AuthState, u: User): (r: AuthState)
    ensures r.user == Some(u) && r.stored == Some(u)
    ensures r.isLoading == s.isLoading
  {
    s.(user := Some(u), stored := Some(u))
  }

  const GuestName: string := "Sunny Guest"
  const GuestEmail: string := "guest@example.com"
  const GuestPicture: string := "https://api.dicebear.com/7.x/fun-emoji/svg?seed=Guest&backgroundColor=fcd34d"

  /** The guest created at time `now` (milliseconds): `guest-` followed by
      the decimal digits of `now`, with the fixed guest name, email and
      picture. */
  function GuestUser(now: nat): (u: User)
    ensures StartsWith(u.id, GuestIdPrefix)
    ensures u.id == GuestIdPrefix + NatToString(now)
    ensures DecimalValue(u.id[|GuestIdPrefix|..]) == now
    ensures forall k :: |GuestIdPrefix| <= k < |u.id| ==> '0' <= u.id[k] <= '9'
    ensures u.name == GuestName && u.email == GuestEmail && u.picture == GuestPicture
  {
    var digits := NatToString(now);
    StartsWithConcat(GuestIdPrefix, digits);
    assert (GuestIdPrefix + digits)[|GuestIdPrefix|..] == digits;
    User(GuestIdPrefix + digits, GuestName, GuestEmail, GuestPicture)
  }

  /** Two guests created at different times have different ids. */
  lemma GuestIdsDistinct(t1: nat, t2: nat)
    requires t1 != t2
    ensures GuestUser(t1).id != GuestUser(t2).id
  {
  }

  /** Guest login: the guest built from the current time is set and stored,
      and loading is unchanged. */
  function LoginAsGuest(s: AuthState, now: nat): (r: AuthState)
    ensures r.user == Some(GuestUser(now)) && r.stored == r.user
    ensures r.user.Some? && StartsWith(r.user.value.id, GuestIdPrefix)
    ensures r.isLoading == s.isLoading
  {
    HandleLogin(s, GuestUser(now))
  }

  /** The Google sign-in callback: a credential that does not decode leaves
      the state unchanged; otherwise the user is built from the claims. */
  function GoogleCallback(s: AuthState, credential: string, decode: string -> Option<Claims>): (r: AuthState)
    ensures DecodeJwt(credential, decode).None? ==> r == s
    ensures DecodeJwt(credential, decode).Some? ==>
      var c := DecodeJwt(credential, decode).value;
      r.user == Some(User(c.sub, c.name, c.email, c.picture)) && r.stored == r.user
  {
    match DecodeJwt(credential, decode)
    case None => s
    case Some(c) => HandleLogin(s, User(c.sub, c.name, c.email, c.picture))
  }

  function Logout(s: AuthState): (r: AuthState)
    ensures r.user.None? && r.stored.None?
    ensures r.isLoading == s.isLoading
  {
    s.(user := None, stored := None)
  }

  /** The mount effect: a saved user is restored, and loading ends. */
  function Mount(s: AuthState, saved: Option<User>): (r: AuthState)
    ensures !r.isLoading
    ensures saved.Some? ==> r.user == saved
    ensures saved.None? ==> r.user == s.user
  {
    match saved
    case Some(u) => s.(user := Some(u), isLoading := false)
    case None => s.(isLoading := false)
  }

  /** Logging out undoes a login: the state is as if it had logged out
      directly. */
  lemma LogoutAfterLogin(s: AuthState, u: User)
    ensures Logout(HandleLogin(s, u)) == Logout(s)
  {
  }

  /** A login survives a reload: the mount effect restores the stored user;
      after a logout nothing is restored. */
  lemma ReloadRestoresLogin(s: AuthState, u: User)
    ensures Mount(InitialAuth, HandleLogin(s, u).stored).user == Some(u)
    ensures Mount(InitialAuth, Logout(HandleLogin(s, u)).stored).user.None?
  {
  }
}

=== FILE: dataurl.dfy ===
/** Splitting of `data:` URLs (section 3 of RFC 2397,
    `data:<mediatype>;base64,<data>`) the way the application does it:
    `url.split(',')[1]` for the payload and
    `url.split(';')[0].split(':')[1]` for the media type. */
module DataUrl {
  import opened Wrappers
  import opened Text

  const DefaultMime: string := "image/png"

  /** The URL `data:<mime>;base64,<data>`. */
  function Make(mime: string, data: string): string {
    "data:" + mime + ";base64," + data
  }

  /** `url.split(',')[1]`: the text between the first and the second comma. */
  function Payload(url: string): (r: Option<string>)
    ensures r.Some? <==> ',' in url
    ensures r.Some? ==> ',' !in r.value
    ensures r.Some? ==> exists k :: 0 <= k < |url| && url[k] == ',' && ',' !in url[..k] && StartsWith(url[k + 1..], r.value)
    ensures ',' in url ==> r == Some(UpToSep(url[FirstIndex(url, ',') + 1..], ','))
  {
    SecondPiece(url, ',');
    if ',' !in url then
      SplitNoSep(url, ',');
      None
    else
      var k := FirstIndex(url, ',');
      assert url == url[..k] + [','] + url[k + 1..];
      SplitAtFirst(url[..k], ',', url[k + 1..]);
      var rest := Split(url[k + 1..], ',');
      JoinSplit(url[k + 1..], ',');
      JoinPrefix(rest, ',');
      Piece(url, ',', 1)
  }

  /** The first piece of a split is a prefix of the joined string. */
  lemma JoinPrefix(pieces: seq<string>, sep: char)
    requires |pieces| >= 1
    ensures StartsWith(Join(pieces, sep), pieces[0])
  {
    if |pieces| > 1 {
      StartsWithConcat(pieces[0], [sep] + Join(pieces[1..], sep));
      assert pieces[0] + [sep] + Join(pieces[1..], sep) == pieces[0] + ([sep] + Join(pieces[1..], sep));
    }
  }

  /** `url.split(';')[0].split(':')[1]`: the text after the first colon of the
      part before the first semicolon, up to any further colon. */
  function RawMime(url: string): Option<string> {
    Piece(Split(url, ';')[0], ':', 1)
  }

  /** `RawMime(url) || 'image/png'`: the media type, defaulting when missing
      or empty. */
  function Mime(url: string): (r: string)
    ensures r != ""
    ensures Truthy(RawMime(url)) ==> r == RawMime(url).value
    ensures !Truthy(RawMime(url)) ==> r == DefaultMime
  {
    var raw := RawMime(url);
    if raw.Some? && raw.value != "" then raw.value else DefaultMime
  }

  /** Payload and media type of a well-formed base64 data URL come back out
      of the two splits unchanged. */
  lemma SplitMake(mime: string, data: string)
    requires ',' !in mime && ';' !in mime && ':' !in mime
    requires ',' !in data
    ensures Payload(Make(mime, data)) == Some(data)
    ensures RawMime(Make(mime, data)) == Some(mime)
  {
    PayloadOfMake(mime, data);
    RawMimeOfMake(mime, data);
  }

  lemma PayloadOfMake(mime: string, data: string)
    requires ',' !in mime
    requires ',' !in data
    ensures Payload(Make(mime, data)) == Some(data)
  {
    var head := "data:" + mime + ";base64";
    assert ',' !in head by {
      forall i | 0 <= i < |head| ensures head[i] != ',' {
        if 5 <= i < 5 + |mime| { assert head[i] == mime[i - 5]; }
      }
    }
    var url := Make(mime, data);
    assert url == head + [','] + data;
    SplitAtFirst(head, ',', data);
    SplitNoSep(data, ',');
    assert Split(url, ',') == [head, data];
    assert ',' in url by { assert url[|head|] == ','; }
  }

  lemma RawMimeOfMake(mime: string, data: string)
    requires ';' !in mime && ':' !in mime
    ensures RawMime(Make(mime, data)) == Some(mime)
  {
    var scheme := "data:" + mime;
    assert ';' !in scheme by {
      forall i | 0 <= i < |scheme| ensures scheme[i] != ';' {
        if 5 <= i { assert scheme[i] == mime[i - 5]; }
      }
    }
    assert Make(mime, data) == scheme + [';'] + ("base64," + data);
    SplitAtFirst(scheme, ';', "base64," + data);
    assert scheme == "data" + [':'] + mime;
    SplitAtFirst("data", ':', mime);
    SplitNoSep(mime, ':');
  }
}

=== FILE: errors.dfy ===
/** The shapes a JavaScript `catch` clause can receive, and the two ways the
    application turns them into text: `extractErrorMessage` in App.tsx and
    the `(error as Error).message` concatenations of the service layer. */
module Errors {
  import opened Wrappers
  import opened Text

  /** A thrown value: either a bare string, or an object with an optional
      `message`, an optional nested `error.message`, and an optional
      `toString` result (absent for objects without a prototype). */
  datatype ErrorValue =
    | Thrown(text: string)
    | ErrorObject(message: Option<string>, nestedMessage: Option<string>, rendered: Option<string>)

  /** The value `new Error(msg)` throws. */
  function JsError(msg: string): ErrorValue {
    ErrorObject(Some(msg), None, Some(if msg == "" then "Error" else "Error: " + msg))
  }

  /** `extractErrorMessage`: a string is used as is; otherwise the first
      truthy of `message` and `error.message`; otherwise `toString()`;
      otherwise the generic message supplied by the caller. */
  function ExtractErrorMessage(err: ErrorValue, generic: string): (r: string)
    ensures err.Thrown? ==> r == err.text
    ensures err.ErrorObject? && Truthy(err.message) ==> r == err.message.value
    ensures err.ErrorObject? && !Truthy(err.message) && Truthy(err.nestedMessage) ==> r == err.nestedMessage.value
    ensures r == generic ||
            (err.Thrown? && r == err.text) ||
            (err.ErrorObject? && (Some(r) == err.message || Some(r) == err.nestedMessage || Some(r) == err.rendered))
    ensures err.ErrorObject? && !Truthy(err.message) && !Truthy(err.nestedMessage) && err.rendered.Some? ==> r == err.rendered.value
    ensures err.ErrorObject? && !Truthy(err.message) && !Truthy(err.nestedMessage) && err.rendered.None? ==> r == generic
  {
    match err
    case Thrown(text) => text
    case ErrorObject(message, nested, rendered) =>
      if Truthy(message) then message.value
      else if Truthy(nested) then nested.value
      else if rendered.Some? then rendered.value
      else generic
  }

  /** `(error as Error).message` used in string concatenation: a missing
      message renders as "undefined". */
  function MessageText(err: ErrorValue): (r: string)
    ensures err.ErrorObject? && err.message.Some? ==> r == err.message.value
    ensures err.ErrorObject? && err.message.None? ==> r == "undefined"
    ensures err.Thrown? ==> r == "undefined"
  {
    match err
    case Thrown(_) => "undefined"
    case ErrorObject(message, _, _) => message.GetOr("undefined")
  }

  /** An `Error` raised by the application itself is reported by its message. */
  lemma ExtractOfJsError(msg: string, generic: string)
    requires msg != ""
    ensures ExtractErrorMessage(JsError(msg), generic) == msg
    ensures MessageText(JsError(msg)) == msg
  {
  }
}

=== FILE: galleryview.dfy ===
/** The gallery screen's own state machine (components/Gallery.tsx): the
    selection, the detail-view index with its navigation, swipe handling,
    the action dialog, and what each interaction asks the application to
    do. The selection is a JavaScript `Set`, whose iteration order is
    insertion order, so it is modelled as a sequence without repeats. */
module GalleryView {
  import opened Wrappers

  datatype Action = EditAction | VideoAction | GifAction

  datatype ViewState = ViewState(
    selected: seq<string>,
    showDialog: bool,
    prompt: string,
    action: Action,
    index: int,
    touchStart: Option<real>,
    touchEnd: Option<real>)

  const InitialView: ViewState := ViewState([], false, "", GifAction, -1, None, None)

  const MinSwipeDistance: real := 50.0

  predicate NoRepeats(s: seq<string>) {
    forall i, j :: 0 <= i < j < |s| ==> s[i] != s[j]
  }

  /** `s` without `id`, order kept. */
  function Remove(s: seq<string>, id: string): (r: seq<string>)
    ensures forall x :: x in r <==> x in s && x != id
    ensures NoRepeats(s) ==> NoRepeats(r)
    ensures id !in s ==> r == s
  {
    if |s| == 0 then []
    else
      var rest := Remove(s[1..], id);
      assert forall x :: x in s <==> x == s[0] || x in s[1..];
      assert NoRepeats(s) ==> NoRepeats(s[1..]) && s[0] !in s[1..] by {
        if NoRepeats(s) {
          forall k | 0 <= k < |s[1..]| ensures s[1..][k] != s[0] { assert s[1..][k] == s[k + 1]; }
        }
      }
      if s[0] == id then rest else [s[0]] + rest
  }

  /** `toggleSelection`: removes the id when selected, otherwise appends it
      (a `Set` adds at the end of its iteration order). */
  function Toggle(selected: seq<string>, id: string): (r: seq<string>)
    requires NoRepeats(selected)
    ensures NoRepeats(r)
    ensures id in r <==> id !in selected
    ensures forall x :: x != id ==> (x in r <==> x in selected)
  {
    if id in selected then Remove(selected, id) else selected + [id]
  }

  /** Toggling twice restores the selection as a set, and restores it
      exactly when the id was not selected before. */
  lemma ToggleTwice(selected: seq<string>, id: string)
    requires NoRepeats(selected)
    ensures forall x :: x in Toggle(Toggle(selected, id), id) <==> x in selected
    ensures id !in selected ==> Toggle(Toggle(selected, id), id) == selected
  {
    if id !in selected {
      RemoveLast(selected, id);
    }
  }

  lemma {:induction false} RemoveLast(s: seq<string>, id: string)
    requires id !in s
    ensures Remove(s + [id], id) == s
  {
    if |s| == 0 {
      assert s + [id] == [id];
    } else {
      assert (s + [id])[1..] == s[1..] + [id];
      RemoveLast(s[1..], id);
      assert [s[0]] + s[1..] == s;
    }
  }

  /** `handleNext`: one step forward unless already on the last item. */
  function Next(index: int, len: nat): (r: int)
    ensures 0 <= index < len ==> 0 <= r < len
    ensures r == index || r == index + 1
    ensures r == index + 1 <==> index < len - 1
  {
    if index < len - 1 then index + 1 else index
  }

  /** `handlePrev`: one step back unless already on the first item. */
  function Prev(index: int, len: nat): (r: int)
    ensures 0 <= index < len ==> 0 <= r < len
    ensures r == index || r == index - 1
    ensures r == index - 1 <==> index > 0
  {
    if index > 0 then index - 1 else index
  }

  /** The effect that keeps the index valid when the gallery shrinks. */
  function Clamp(index: int, len: nat): (r: int)
    ensures len > 0 && index >= len ==> r == len - 1
    ensures len == 0 ==> r == -1
    ensures len > 0 && index < len ==> r == index
    ensures -1 <= index ==> -1 <= r < if len == 0 then 0 else len
  {
    if index >= len && len > 0 then len - 1
    else if len == 0 && index != -1 then -1
    else index
  }

  /** Running the effect again changes nothing. */
  lemma ClampIdempotent(index: int, len: nat)
    ensures Clamp(Clamp(index, len), len) == Clamp(index, len)
  {
  }

  /** A detail view is open when the index names an item. */
  predicate Viewing(index: int, len: nat) {
    0 <= index < len
  }

  datatype Swipe = SwipeNext | SwipePrev | NoSwipe

  /** `onTouchEnd`: a missing or zero coordinate (falsy) does nothing;
      otherwise a leftward distance over 50 goes forward and a rightward one
      over 50 goes back. */
  function ClassifySwipe(start: Option<real>, end: Option<real>): (r: Swipe)
    ensures start.None? || end.None? || start == Some(0.0) || end == Some(0.0) ==> r == NoSwipe
    ensures start.Some? && end.Some? && start.value != 0.0 && end.value != 0.0 ==>
      r == if start.value - end.value > MinSwipeDistance then SwipeNext
           else if start.value - end.value < -MinSwipeDistance then SwipePrev
           else NoSwipe
  {
    if start.None? || end.None? || start.value == 0.0 || end.value == 0.0 then NoSwipe
    else
      var distance := start.value - end.value;
      if distance > MinSwipeDistance then SwipeNext
      else if distance < -MinSwipeDistance then SwipePrev
      else NoSwipe
  }

  /** A new touch records where it starts and forgets any earlier end, so it
      cannot be classified as a swipe until it moves. */
  function OnTouchStart(v: ViewState, x: real): (r: ViewState)
    ensures r == v.(touchStart := r.touchStart, touchEnd := r.touchEnd)
    ensures r.touchStart == Some(x)
    ensures ClassifySwipe(r.touchStart, r.touchEnd) == NoSwipe
  {
    v.(touchEnd := None, touchStart := Some(x))
  }

  /** A move records the latest position, keeping the start. */
  function OnTouchMove(v: ViewState, x: real): (r: ViewState)
    ensures r == v.(touchEnd := r.touchEnd)
    ensures r.touchEnd == Some(x)
  {
    v.(touchEnd := Some(x))
  }

  function OnTouchEnd(v: ViewState, len: nat): (r: ViewState)
    ensures r == v.(index := r.index)
    ensures 0 <= v.index < len ==> 0 <= r.index < len
    ensures ClassifySwipe(v.touchStart, v.touchEnd) == NoSwipe ==> r == v
  {
    match ClassifySwipe(v.touchStart, v.touchEnd)
    case SwipeNext => v.(index := Next(v.index, len))
    case SwipePrev => v.(index := Prev(v.index, len))
    case NoSwipe => v
  }

  /** A tap without movement never navigates: the start handler clears the
      end coordinate. */
  lemma TapDoesNotNavigate(v: ViewState, x: real, len: nat)
    ensures OnTouchEnd(OnTouchStart(v, x), len) == OnTouchStart(v, x)
  {
  }

  /** `handleActionClick`: opens the dialog for an action with an empty
      prompt; the selection and the view are kept. */
  function ActionClick(v: ViewState, action: Action): (r: ViewState)
    ensures r.showDialog && r.prompt == "" && r.action == action
    ensures r.selected == v.selected && r.index == v.index
  {
    v.(action := action, prompt := "", showDialog := true)
  }

  /** What the screen asks the application to do. */
  datatype Request =
    | NoRequest
    | EditRequest(id: string, instruction: string)
    | CreateRequest(ids: seq<string>, prompt: Option<string>)
    | DeleteRequests(ids: seq<string>)
    | BackRequest

  /** `handleConfirmAction`: closes the dialog; an edit needs exactly one
      selected id, a video passes the prompt, a GIF passes none. */
  function Confirm(v: ViewState): (r: (ViewState, Request))
    ensures r.0 == v.(showDialog := false)
    ensures r.1.EditRequest? <==> v.action == EditAction && |v.selected| == 1
    ensures r.1.EditRequest? ==> r.1 == EditRequest(v.selected[0], v.prompt)
    ensures v.action == VideoAction ==> r.1 == CreateRequest(v.selected, Some(v.prompt))
    ensures v.action == GifAction ==> r.1 == CreateRequest(v.selected, None)
    ensures v.action == EditAction && |v.selected| != 1 ==> r.1 == NoRequest
  {
    var closed := v.(showDialog := false);
    if v.action == EditAction && |v.selected| == 1 then (closed, EditRequest(v.selected[0], v.prompt))
    else if v.action == VideoAction then (closed, CreateRequest(v.selected, Some(v.prompt)))
    else if v.action == GifAction then (closed, CreateRequest(v.selected, None))
    else (closed, NoRequest)
  }

  /** `handleInternalBack`: closes the detail view, or leaves the gallery
      from the grid. */
  function InternalBack(v: ViewState, len: nat): (r: (ViewState, Request))
    ensures Viewing(v.index, len) ==> r == (v.(index := -1), NoRequest)
    ensures !Viewing(v.index, len) ==> r == (v, BackRequest)
  {
    if Viewing(v.index, len) then (v.(index := -1), NoRequest) else (v, BackRequest)
  }

  /** A tile click toggles while a selection exists, otherwise opens that
      tile in the detail view. */
  function TileClick(v: ViewState, position: int, id: string): (r: ViewState)
    requires NoRepeats(v.selected)
    ensures |v.selected| > 0 ==> r == v.(selected := Toggle(v.selected, id))
    ensures |v.selected| == 0 ==> r == v.(index := position)
  {
    if |v.selected| > 0 then v.(selected := Toggle(v.selected, id)) else v.(index := position)
  }

  /** The selection circle always toggles. */
  function CircleClick(v: ViewState, id: string): (r: ViewState)
    requires NoRepeats(v.selected)
    ensures r.selected == Toggle(v.selected, id)
  {
    v.(selected := Toggle(v.selected, id))
  }

  /** The bulk delete behind the `delete_confirm` dialog: when accepted, one
      delete request per selected id, in selection order, then an empty
      selection; when declined, nothing. */
  function BulkDelete(v: ViewState, confirmed: bool): (r: (ViewState, Request))
    ensures confirmed ==> r.0 == v.(selected := []) && r.1 == DeleteRequests(v.selected)
    ensures !confirmed ==> r == (v, NoRequest)
  {
    if confirmed then (v.(selected := []), DeleteRequests(v.selected)) else (v, NoRequest)
  }

  /** Delete from the detail view, behind the same dialog: when accepted, the
      one deletion, with the index reset when the gallery had at most one
      item (otherwise the clamp effect adjusts it); when declined, nothing. */
  function DetailDelete(v: ViewState, len: nat, id: string, confirmed: bool): (r: (ViewState, Request))
    ensures confirmed ==> r.1 == DeleteRequests([id])
    ensures confirmed && len <= 1 ==> r.0.index == -1
    ensures confirmed && len <= 1 ==> r.0 == v.(index := r.0.index)
    ensures len > 1 || !confirmed ==> r.0 == v
    ensures !confirmed ==> r.1 == NoRequest
  {
    if !confirmed then (v, NoRequest)
    else (if len <= 1 then v.(index := -1) else v, DeleteRequests([id]))
  }

  /** A full gesture: touch at `a`, move to `b`, release. Leftward by more
      than 50 goes forward, rightward by more than 50 goes back, and a
      gesture starting or ending at 0 never navigates. */
  lemma SwipeGesture(v: ViewState, a: real, b: real, len: nat)
    ensures var r := OnTouchEnd(OnTouchMove(OnTouchStart(v, a), b), len);
      r.index == (if a == 0.0 || b == 0.0 then v.index
                  else if a - b > MinSwipeDistance then Next(v.index, len)
                  else if a - b < -MinSwipeDistance then Prev(v.index, len)
                  else v.index)
  {
  }

  /** Back twice from the detail view: the first closes the detail view and
      stays, the second leaves the gallery. */
  lemma BackTwiceLeaves(v: ViewState, len: nat)
    requires Viewing(v.index, len)
    ensures var (first, request) := InternalBack(v, len);
      request == NoRequest && !Viewing(first.index, len) &&
      InternalBack(first, len) == (first, BackRequest)
  {
  }

  /** Confirming straight after opening the dialog sends an empty prompt: an
      edit of the single selected item with an empty instruction, or a video
      request with the empty prompt. */
  lemma ConfirmUntyped(v: ViewState, action: Action)
    ensures action == VideoAction ==> Confirm(ActionClick(v, action)).1 == CreateRequest(v.selected, Some(""))
    ensures action == EditAction && |v.selected| == 1 ==> Confirm(ActionClick(v, action)).1 == EditRequest(v.selected[0], "")
  {
  }
}

=== FILE: gemini.dfy ===
/** The pure parts of the remote-call layer (services/geminiService.ts): the
    style prompt table, extraction of the generated image from a response,
    error wrapping, reference-image selection for video, the video request,
    and the classification of a finished video operation. The SDK calls
    themselves are replies given as parameters. */
module Gemini {
  import opened Wrappers
  import opened Text
  import opened Types
  import opened Errors
  import DataUrl

  /** What an awaited SDK call produced: a value, or a thrown error. */
  datatype Reply<T> = Responded(value: T) | Rejected(error: ErrorValue)

  const FallbackStylePrompt: string := "a cute, vibrant 3D cartoon character."

  /** The style a tag names, if any. */
  function ParseStyle(tag: string): Option<AvatarStyleId> {
    if tag == "3d" then Some(ThreeD)
    else if tag == "anime" then Some(Anime)
    else if tag == "clay" then Some(Clay)
    else if tag == "flat" then Some(Flat)
    else if tag == "sketch" then Some(Sketch)
    else if tag == "pixel" then Some(Pixel)
    else if tag == "watercolor" then Some(Watercolor)
    else None
  }

  /** Every style's tag names that style, and only the seven tags name one. */
  lemma ParseStyleTag(s: AvatarStyleId, other: string)
    requires forall st: AvatarStyleId :: other != StyleTag(st)
    ensures ParseStyle(StyleTag(s)) == Some(s)
    ensures ParseStyle(other) == None
  {
    assert other != StyleTag(ThreeD) && other != StyleTag(Anime) && other != StyleTag(Clay);
    assert other != StyleTag(Flat) && other != StyleTag(Sketch);
    assert other != StyleTag(Pixel) && other != StyleTag(Watercolor);
  }

  const ThreeDDescription: string := "a cute, vibrant 3D Pixar-like cartoon character. Render with soft warm lighting, rounded shapes, and high-fidelity textures."
  const AnimeDescription: string := "a high-quality modern anime character. Studio Ghibli inspired, vibrant colors, expressive eyes, clean lines."
  const ClayDescription: string := "a cute claymation character. Stop-motion plasticine texture, soft rounded edges, handmade feel."
  const FlatDescription: string := "a trendy flat vector illustration. Minimalist, bold solid colors, geometric shapes, no gradients, clean design."
  const SketchDescription: string := "an artistic colored pencil sketch. Hand-drawn texture, loose lines, warm artistic vibe."
  const PixelDescription: string := "a cute 8-bit pixel art character. Retro game style, vibrant limited color palette, blocky shapes."
  const WatercolorDescription: string := "a soft watercolor painting. Artistic, pastel colors, paper texture, gentle brush strokes, dreamy vibe."

  function StyleDescription(style: AvatarStyleId): string {
    match style
    case ThreeD => ThreeDDescription
    case Anime => AnimeDescription
    case Clay => ClayDescription
    case Flat => FlatDescription
    case Sketch => SketchDescription
    case Pixel => PixelDescription
    case Watercolor => WatercolorDescription
  }

  /** `getStylePrompt`: the description of the style the tag names, the
      generic one for any other value. */
  function StylePrompt(tag: string): (r: string)
    ensures forall s: AvatarStyleId :: tag == StyleTag(s) ==> r == StyleDescription(s)
    ensures (forall s: AvatarStyleId :: tag != StyleTag(s)) ==> r == FallbackStylePrompt
  {
    assert forall s: AvatarStyleId :: tag == StyleTag(s) ==> ParseStyle(tag) == Some(s) by {
      forall s: AvatarStyleId | tag == StyleTag(s) ensures ParseStyle(tag) == Some(s) { ParseStyleTag(s, "?"); }
    }
    assert (forall s: AvatarStyleId :: tag != StyleTag(s)) ==> ParseStyle(tag) == None by {
      if forall s: AvatarStyleId :: tag != StyleTag(s) { ParseStyleTag(ThreeD, tag); }
    }
    match ParseStyle(tag)
    case Some(style) => StyleDescription(style)
    case None => FallbackStylePrompt
  }

  /** The seven descriptions are pairwise distinct and none is the fallback;
      any unknown tag gets the fallback. */
  lemma StylePromptsDistinct(s: AvatarStyleId, t: AvatarStyleId, other: string)
    requires forall st: AvatarStyleId :: other != StyleTag(st)
    ensures StylePrompt(StyleTag(s)) != FallbackStylePrompt
    ensures s != t ==> StylePrompt(StyleTag(s)) != StylePrompt(StyleTag(t))
    ensures StylePrompt(other) == FallbackStylePrompt
  {
    ParseStyleTag(s, other);
    ParseStyleTag(t, other);
    DescriptionLength(s);
    DescriptionLength(t);
  }

  /** The descriptions already differ in length. */
  lemma DescriptionLength(s: AvatarStyleId)
    ensures |StyleDescription(s)| == DescriptionLengthOf(s)
    ensures |FallbackStylePrompt| == 37
  {
    assert |ThreeDDescription| == 124 && |AnimeDescription| == 108 && |ClayDescription| == 95;
    assert |FlatDescription| == 111 && |SketchDescription| == 87;
    assert |PixelDescription| == 97 && |WatercolorDescription| == 102;
  }

  function DescriptionLengthOf(s: AvatarStyleId): nat {
    match s
    case ThreeD => 124 case Anime => 108 case Clay => 95 case Flat => 111
    case Sketch => 87 case Pixel => 97 case Watercolor => 102
  }

  // ---- image responses ----

  datatype InlineData = InlineData(mimeType: Option<string>, data: Option<string>)
  datatype Part = Part(inlineData: Option<InlineData>, text: Option<string>)
  datatype Candidate = Candidate(parts: seq<Part>)
  datatype Response = Response(candidates: Option<seq<Candidate>>)

  /** `part.inlineData && part.inlineData.data`. */
  predicate HasImageData(p: Part) {
    p.inlineData.Some? && Truthy(p.inlineData.value.data)
  }

  /** The position of the first part carrying non-empty inline data. */
  function FirstImagePart(parts: seq<Part>): (r: Option<nat>)
    ensures r.Some? ==> r.value < |parts| && HasImageData(parts[r.value])
    ensures r.Some? ==> forall j :: 0 <= j < r.value ==> !HasImageData(parts[j])
    ensures r.None? <==> forall j :: 0 <= j < |parts| ==> !HasImageData(parts[j])
  {
    if |parts| == 0 then None
    else if HasImageData(parts[0]) then Some(0)
    else match FirstImagePart(parts[1..])
      case None => None
      case Some(i) => Some(i + 1)
  }

  const PngPrefix: string := "data:image/png;base64,"
  const NoCandidatesMessage: string := "No candidates returned from AI."
  const NoImageMessage: string := "AI did not return an image."

  /** The image of a response as a PNG data URL, whatever mime type the part
      declared; missing candidates or a missing image part are errors. */
  function ImageFromResponse(resp: Response): (r: Result<string, ErrorValue>)
    ensures resp.candidates.None? || |resp.candidates.value| == 0 ==> r == Err(JsError(NoCandidatesMessage))
    ensures resp.candidates.Some? && |resp.candidates.value| > 0 ==>
      var parts := resp.candidates.value[0].parts;
      match FirstImagePart(parts)
      case None => r == Err(JsError(NoImageMessage))
      case Some(i) => r == Ok(PngPrefix + parts[i].inlineData.value.data.value)
  {
    if resp.candidates.None? || |resp.candidates.value| == 0 then Err(JsError(NoCandidatesMessage))
    else
      var parts := resp.candidates.value[0].parts;
      match FirstImagePart(parts)
      case None => Err(JsError(NoImageMessage))
      case Some(i) => Ok(PngPrefix + parts[i].inlineData.value.data.value)
  }

  /** The returned URL splits back into the returned bytes and `image/png`,
      so an edit of a generated image sends the same bytes back. */
  lemma ImageUrlRoundTrip(data: string)
    requires ',' !in data
    ensures DataUrl.Payload(PngPrefix + data) == Some(data)
    ensures DataUrl.Mime(PngPrefix + data) == "image/png"
  {
    assert PngPrefix + data == DataUrl.Make("image/png", data);
    DataUrl.SplitMake("image/png", data);
  }

  const AvatarFailureMessage: string := "Failed to generate avatar. Please try again."

  /** `generateAvatar` after the remote call: every failure becomes the one
      fixed message. */
  function GenerateAvatarResult(reply: Reply<Response>): (r: Result<string, ErrorValue>)
    ensures r.Err? ==> r.error == JsError(AvatarFailureMessage)
    ensures r.Ok? <==> reply.Responded? && ImageFromResponse(reply.value).Ok?
    ensures r.Ok? ==> r == ImageFromResponse(reply.value)
  {
    match reply
    case Rejected(_) => Err(JsError(AvatarFailureMessage))
    case Responded(resp) =>
      match ImageFromResponse(resp)
      case Ok(url) => Ok(url)
      case Err(_) => Err(JsError(AvatarFailureMessage))
  }

  const EditFailurePrefix: string := "Failed to edit avatar. "

  /** `editAvatar` after the remote call: failures keep the inner message
      behind the prefix "Failed to edit avatar. ". */
  function EditAvatarResult(reply: Reply<Response>): (r: Result<string, ErrorValue>)
    ensures reply.Rejected? ==> r == Err(JsError(EditFailurePrefix + MessageText(reply.error)))
    ensures reply.Responded? ==>
      match ImageFromResponse(reply.value)
      case Ok(url) => r == Ok(url)
      case Err(e) => r == Err(JsError(EditFailurePrefix + MessageText(e)))
  {
    match reply
    case Rejected(e) => Err(JsError(EditFailurePrefix + MessageText(e)))
    case Responded(resp) =>
      match ImageFromResponse(resp)
      case Ok(url) => Ok(url)
      case Err(e) => Err(JsError(EditFailurePrefix + MessageText(e)))
  }

  /** A response without an image part fails the edit with the inner
      message visible. */
  lemma EditWithoutImage(resp: Response)
    requires resp.candidates.Some? && |resp.candidates.value| > 0
    requires forall j :: 0 <= j < |resp.candidates.value[0].parts| ==> !HasImageData(resp.candidates.value[0].parts[j])
    ensures EditAvatarResult(Responded(resp)) == Err(JsError(EditFailurePrefix + NoImageMessage))
  {
    assert FirstImagePart(resp.candidates.value[0].parts).None?;
    assert ImageFromResponse(resp) == Err(JsError(NoImageMessage));
    assert MessageText(JsError(NoImageMessage)) == NoImageMessage;
  }

  // ---- video ----

  const MaxReferences: nat := 3
  const DefaultAnimationPrompt: string := "Animate these characters in a fun, sunny way."

  /** One reference image of the video request: `url.split(',')[1]` and the
      media type defaulting to `image/png`. */
  datatype ReferenceImage = ReferenceImage(imageBytes: Option<string>, mimeType: string)

  predicate IsImageDataUrl(url: string) {
    StartsWith(url, "data:image")
  }

  function ToReference(url: string): ReferenceImage {
    ReferenceImage(DataUrl.Payload(url), DataUrl.Mime(url))
  }

  /** The image data URLs among `urls`, converted, in order. */
  function KeepImages(urls: seq<string>): (refs: seq<ReferenceImage>)
    ensures |refs| <= |urls|
    ensures forall r :: r in refs <==> exists u :: u in urls && IsImageDataUrl(u) && r == ToReference(u)
  {
    if |urls| == 0 then []
    else
      var rest := KeepImages(urls[1..]);
      assert forall u :: u in urls[1..] ==> u in urls;
      assert forall u :: u in urls ==> u == urls[0] || u in urls[1..];
      if IsImageDataUrl(urls[0]) then [ToReference(urls[0])] + rest else rest
  }

  lemma {:induction false} KeepImagesConcat(a: seq<string>, b: seq<string>)
    ensures KeepImages(a + b) == KeepImages(a) + KeepImages(b)
  {
    if |a| > 0 {
      assert (a + b)[1..] == a[1..] + b;
      KeepImagesConcat(a[1..], b);
    } else {
      assert a + b == b;
    }
  }

  /** `imageUrls.slice(0, 3)` filtered to image data URLs: at most three
      references, taken in input order, from the first three URLs only. */
  function SelectReferences(urls: seq<string>): (refs: seq<ReferenceImage>)
    ensures |refs| <= MaxReferences && |refs| <= |urls|
    ensures |urls| <= MaxReferences ==> refs == KeepImages(urls)
    ensures |urls| >= MaxReferences ==> refs == KeepImages(urls[..MaxReferences])
  {
    var n := if |urls| < MaxReferences then |urls| else MaxReferences;
    assert urls[..|urls|] == urls;
    KeepImages(urls[..n])
  }

  /** A URL after the third is never used, even when earlier ones were
      dropped: nothing is filled in from later URLs. */
  lemma NoBackfill(urls: seq<string>, extra: seq<string>)
    requires |urls| == MaxReferences
    ensures SelectReferences(urls + extra) == KeepImages(urls)
  {
    assert (urls + extra)[..MaxReferences] == urls;
  }

  /** With a non-image first URL and images after it, only two of the first
      three survive, however many image URLs follow. */
  lemma DroppedNotReplaced(bad: string, a: string, b: string, later: seq<string>)
    requires !IsImageDataUrl(bad) && IsImageDataUrl(a) && IsImageDataUrl(b)
    ensures SelectReferences([bad, a, b] + later) == [ToReference(a), ToReference(b)]
  {
    NoBackfill([bad, a, b], later);
    assert KeepImages([]) == [];
    assert [b][1..] == [];
    assert KeepImages([b]) == [ToReference(b)];
    assert [a, b][1..] == [b];
    assert KeepImages([a, b]) == [ToReference(a), ToReference(b)];
    assert [bad, a, b][1..] == [a, b];
  }

  /** A single selected image is sent as the one reference of the video
      request. */
  lemma SingleImageReference(u: string, prompt: string)
    requires IsImageDataUrl(u)
    ensures SelectReferences([u]) == [ToReference(u)]
    ensures BuildVideoRequest([u], prompt).references == Some([ToReference(u)])
  {
    assert [u][1..] == [];
    assert KeepImages([u]) == [ToReference(u)];
  }

  /** The parts of the video request the application decides. */
  datatype VideoRequest = VideoRequest(
    model: string,
    prompt: string,
    numberOfVideos: nat,
    references: Option<seq<ReferenceImage>>,
    resolution: string,
    aspectRatio: string)

  /** The `generateVideos` call: an empty prompt is replaced by the default
      animation prompt, and the references are attached only when there are
      some. */
  function BuildVideoRequest(urls: seq<string>, prompt: string): (req: VideoRequest)
    ensures req.references.Some? <==> |SelectReferences(urls)| > 0
    ensures req.references.Some? ==> req.references.value == SelectReferences(urls)
    ensures prompt == "" ==> req.prompt == DefaultAnimationPrompt
    ensures prompt != "" ==> req.prompt == prompt
    ensures req.numberOfVideos == 1
  {
    var refs := SelectReferences(urls);
    VideoRequest("veo-3.1-generate-preview",
                 if prompt == "" then DefaultAnimationPrompt else prompt,
                 1,
                 if |refs| > 0 then Some(refs) else None,
                 "720p", "16:9")
  }

  datatype VideoFile = VideoFile(uri: Option<string>)
  datatype GeneratedVideo = GeneratedVideo(video: Option<VideoFile>)
  datatype VideoResponse = VideoResponse(generatedVideos: Option<seq<GeneratedVideo>>)
  datatype OperationError = OperationError(message: Option<string>)

  /** A long-running video operation as the status check returns it. The
      videos may sit under `response` or, in some SDK versions, `result`. */
  datatype Operation = Operation(
    done: bool,
    error: Option<OperationError>,
    response: Option<VideoResponse>,
    result: Option<VideoResponse>)

  /** `operation.response?.generatedVideos || operation.result?.generatedVideos`:
      a present list under `response`, even an empty one, wins. */
  function GeneratedVideos(op: Operation): (r: Option<seq<GeneratedVideo>>)
    ensures op.response.Some? && op.response.value.generatedVideos.Some? ==> r == op.response.value.generatedVideos
    ensures !(op.response.Some? && op.response.value.generatedVideos.Some?) ==>
      r == (if op.result.Some? then op.result.value.generatedVideos else None)
  {
    if op.response.Some? && op.response.value.generatedVideos.Some? then op.response.value.generatedVideos
    else if op.result.Some? then op.result.value.generatedVideos
    else None
  }

  /** `generatedVideos?.[0]?.video?.uri`, truthy. */
  function DownloadLink(op: Operation): (r: Option<string>)
    ensures r.Some? ==> r.value != ""
    ensures r.Some? ==> var vs := GeneratedVideos(op);
      vs.Some? && |vs.value| > 0 && vs.value[0].video == Some(VideoFile(r))
    ensures var vs := GeneratedVideos(op);
      vs.Some? && |vs.value| > 0 && vs.value[0].video.Some? && Truthy(vs.value[0].video.value.uri) ==>
      r == vs.value[0].video.value.uri
  {
    var vs := GeneratedVideos(op);
    if vs.Some? && |vs.value| > 0 && vs.value[0].video.Some? && Truthy(vs.value[0].video.value.uri)
    then vs.value[0].video.value.uri
    else None
  }

  const NoUriMessage: string := "No video URI returned. The video might have been filtered for safety or failed silently."

  /** The outcome of a finished operation: a reported error fails with its
      message; otherwise the first video's uri, and no uri is a failure
      although the operation reported completion. */
  function ClassifyOperation(op: Operation): (r: Result<string, ErrorValue>)
    ensures op.error.Some? ==> r == Err(JsError("Video generation failed: " + op.error.value.message.GetOr("undefined")))
    ensures op.error.None? && DownloadLink(op).None? ==> r == Err(JsError(NoUriMessage))
    ensures r.Ok? <==> op.error.None? && DownloadLink(op).Some?
    ensures r.Ok? ==> Some(r.value) == DownloadLink(op)
  {
    if op.error.Some? then Err(JsError("Video generation failed: " + op.error.value.message.GetOr("undefined")))
    else match DownloadLink(op)
      case None => Err(JsError(NoUriMessage))
      case Some(uri) => Ok(uri)
  }

  /** A running job, or its outcome. */
  datatype Job<T> = Pending | Done(outcome: T)

  /** The polling loop over a finite trace of status-check replies: the first
      operation reported done, or the first rejected check. */
  function Settle(op: Operation, trace: seq<Reply<Operation>>): (j: Job<Result<Operation, ErrorValue>>)
    ensures j.Done? && j.outcome.Ok? ==> j.outcome.value.done
    ensures op.done ==> j == Done(Ok(op))
    decreases |trace|
  {
    if op.done then Done(Ok(op))
    else if |trace| == 0 then Pending
    else match trace[0]
      case Rejected(e) => Done(Err(e))
      case Responded(next) => Settle(next, trace[1..])
  }

  /** The polling loop itself: keeps asking while the operation is not done
      and replies remain. */
  method Poll(op: Operation, trace: seq<Reply<Operation>>) returns (j: Job<Result<Operation, ErrorValue>>)
    ensures j == Settle(op, trace)
    ensures j.Pending? ==> !op.done && forall k :: 0 <= k < |trace| ==> trace[k].Responded? && !trace[k].value.done
  {
    var current := op;
    var i := 0;
    while !current.done && i < |trace|
      invariant 0 <= i <= |trace|
      invariant Settle(current, trace[i..]) == Settle(op, trace)
      invariant forall k :: 0 <= k < i ==> trace[k].Responded?
      invariant forall k :: 0 <= k < i - 1 ==> !trace[k].value.done
      invariant i > 0 ==> trace[i - 1].Responded? && current == trace[i - 1].value
      decreases |trace| - i
    {
      match trace[i]
      case Rejected(e) =>
        return Done(Err(e));
      case Responded(next) =>
        current := next;
        i := i + 1;
    }
    if current.done {
      j := Done(Ok(current));
    } else {
      j := Pending;
    }
  }

  /** The video download: a fetch that resolved (with its `ok` flag and the
      object URL made from its body), or a rejected fetch. */
  datatype Download = Fetched(ok: bool, objectUrl: string) | FetchRejected(error: ErrorValue)

  /** Everything `generateVideo` does after shaping the request. */
  datatype VideoRun = VideoRun(request: VideoRequest, fetchUrl: Option<string>, outcome: Job<Result<string, ErrorValue>>)

  const VideoFailurePrefix: string := "Failed to generate video. "
  const DownloadFailureMessage: string := "Failed to download generated video."

  function WrapVideoError(e: ErrorValue): (w: ErrorValue)
    ensures w == JsError(VideoFailurePrefix + MessageText(e))
  {
    JsError(VideoFailurePrefix + MessageText(e))
  }

  /** `generateVideo` given the replies of the submission, of each status
      check, and of the download. */
  function GenerateVideo(urls: seq<string>, prompt: string, apiKey: string,
                         submitted: Reply<Operation>, trace: seq<Reply<Operation>>,
                         download: Download): (run: VideoRun)
    ensures run.request == BuildVideoRequest(urls, prompt)
    ensures run.outcome.Done? && run.outcome.outcome.Err? ==>
      exists e :: run.outcome.outcome.error == JsError(VideoFailurePrefix + MessageText(e))
    ensures run.outcome.Done? && run.outcome.outcome.Ok? ==>
      run.fetchUrl.Some? && download == Fetched(true, run.outcome.outcome.value)
    ensures run.fetchUrl.Some? ==>
      (submitted.Responded? &&
       match Settle(submitted.value, trace)
       case Done(Ok(final)) => ClassifyOperation(final).Ok? && run.fetchUrl.value == ClassifyOperation(final).value + "&key=" + apiKey
       case _ => false)
    // A rejected submission fails at once.
    ensures submitted.Rejected? ==>
      run.fetchUrl.None? && run.outcome == Done(Err(WrapVideoError(submitted.error)))
    // Polling that never sees the operation done leaves the job running.
    ensures submitted.Responded? && Settle(submitted.value, trace).Pending? ==>
      run.fetchUrl.None? && run.outcome.Pending?
    // A rejected status check fails the job with its error.
    ensures submitted.Responded? && Settle(submitted.value, trace).Done? && Settle(submitted.value, trace).outcome.Err? ==>
      run.fetchUrl.None? && run.outcome == Done(Err(WrapVideoError(Settle(submitted.value, trace).outcome.error)))
    // A finished operation with an error or without a uri fails without a fetch.
    ensures submitted.Responded? && Settle(submitted.value, trace).Done? && Settle(submitted.value, trace).outcome.Ok? &&
            ClassifyOperation(Settle(submitted.value, trace).outcome.value).Err? ==>
      run.fetchUrl.None? &&
      run.outcome == Done(Err(WrapVideoError(ClassifyOperation(Settle(submitted.value, trace).outcome.value).error)))
    // A finished operation with a uri is downloaded from that uri plus the key,
    // and the download decides the outcome.
    ensures submitted.Responded? && Settle(submitted.value, trace).Done? && Settle(submitted.value, trace).outcome.Ok? &&
            ClassifyOperation(Settle(submitted.value, trace).outcome.value).Ok? ==>
      var uri := ClassifyOperation(Settle(submitted.value, trace).outcome.value).value;
      run.fetchUrl == Some(uri + "&key=" + apiKey) &&
      run.outcome == match download
        case FetchRejected(e) => Done(Err(WrapVideoError(e)))
        case Fetched(true, objectUrl) => Done(Ok(objectUrl))
        case Fetched(false, _) => Done(Err(WrapVideoError(JsError(DownloadFailureMessage))))
  {
    var request := BuildVideoRequest(urls, prompt);
    match submitted
    case Rejected(e) => VideoRun(request, None, Done(Err(WrapVideoError(e))))
    case Responded(op) =>
      match Settle(op, trace)
      case Pending => VideoRun(request, None, Pending)
      case Done(Err(e)) => VideoRun(request, None, Done(Err(WrapVideoError(e))))
      case Done(Ok(final)) =>
        match ClassifyOperation(final)
        case Err(e) => VideoRun(request, None, Done(Err(WrapVideoError(e))))
        case Ok(uri) =>
          var fetchUrl := Some(uri + "&key=" + apiKey);
          match download
          case FetchRejected(e) => VideoRun(request, fetchUrl, Done(Err(WrapVideoError(e))))
          case Fetched(ok, objectUrl) =>
            if ok then VideoRun(request, fetchUrl, Done(Ok(objectUrl)))
            else VideoRun(request, fetchUrl, Done(Err(WrapVideoError(JsError(DownloadFailureMessage)))))
  }

  /** An operation that is done but carries no video uri fails the job, and
      nothing is downloaded. */
  lemma DoneWithoutUriFails(urls: seq<string>, prompt: string, apiKey: string, op: Operation, download: Download)
    requires op.done && op.error.None? && DownloadLink(op).None?
    ensures GenerateVideo(urls, prompt, apiKey, Responded(op), [], download)
         == VideoRun(BuildVideoRequest(urls, prompt), None, Done(Err(JsError(VideoFailurePrefix + NoUriMessage))))
  {
  }

  /** The successful path: a submission that finishes on the first status
      check with a uri, followed by an `ok` download, yields that download's
      object URL, fetched from the uri with the key appended. */
  lemma VideoSucceeds(urls: seq<string>, prompt: string, apiKey: string,
                      op: Operation, final: Operation, objectUrl: string)
    requires !op.done && final.done && final.error.None? && DownloadLink(final).Some?
    ensures GenerateVideo(urls, prompt, apiKey, Responded(op), [Responded(final)], Fetched(true, objectUrl))
         == VideoRun(BuildVideoRequest(urls, prompt),
                     Some(DownloadLink(final).value + "&key=" + apiKey),
                     Done(Ok(objectUrl)))
  {
    assert [Responded(final)][1..] == [];
  }
}

=== FILE: gif.dfy ===
/** The GIF compositor (services/gifService.ts `createGif`). Decoding a URL,
    drawing a source onto the canvas and encoding the frames are oracles
    given as parameters; the model keeps the selection of sources, the
    per-frame failure skipping, the fixed canvas size and frame delay, and
    the error cases. */
module Gif {
  import opened Wrappers
  import opened Errors

  const CanvasWidth: int := 512
  const CanvasHeight: int := 512
  const FrameDelay: int := 500

  const NoImagesMessage: string := "No valid images loaded"
  const NoContextMessage: string := "Could not get canvas context"
  const NoFramesMessage: string := "No valid frames created for GIF"

  /** A decoded image element: whether loading completed and its natural
      size, plus the URL it was decoded from. */
  datatype Image = Image(source: string, complete: bool, naturalWidth: int, naturalHeight: int)

  /** Captured canvas pixels of one frame and its display delay. */
  datatype Frame = Frame(imageData: seq<int>, delay: int)

  /** The argument of the encoder call. */
  datatype EncodeInput = EncodeInput(width: int, height: int, frames: seq<Frame>)

  datatype Blob = Blob(bytes: seq<int>)

  /** A loaded element that can be drawn: load succeeded, complete, and a
      positive natural size. */
  predicate Usable(img: Option<Image>) {
    img.Some? && img.value.complete && img.value.naturalWidth > 0 && img.value.naturalHeight > 0
  }

  /** The usable images among the load results, in input order. */
  function ValidSources(loaded: seq<Option<Image>>): (valid: seq<Image>)
    ensures |valid| <= |loaded|
    ensures forall x :: x in valid <==> Some(x) in loaded && Usable(Some(x))
  {
    if |loaded| == 0 then []
    else
      var rest := ValidSources(loaded[1..]);
      assert forall o :: o in loaded <==> o == loaded[0] || o in loaded[1..];
      if Usable(loaded[0]) then [loaded[0].value] + rest else rest
  }

  lemma {:induction false} ValidSourcesConcat(a: seq<Option<Image>>, b: seq<Option<Image>>)
    ensures ValidSources(a + b) == ValidSources(a) + ValidSources(b)
  {
    if |a| > 0 {
      assert (a + b)[1..] == a[1..] + b;
      ValidSourcesConcat(a[1..], b);
    } else {
      assert a + b == b;
    }
  }

  /** What happened to one source on the canvas: drawn and captured, the
      `drawImage` call threw (the frame is skipped), or the `getImageData`
      call threw. The last is outside the per-frame `try`, so it aborts the
      whole GIF. */
  datatype Drawing = Drawn(pixels: seq<int>) | DrawThrew | CaptureThrew(error: ErrorValue)

  /** The frames of the drawing loop: one frame per drawn source, in order,
      each shown for 500 ms; a source whose draw throws contributes nothing;
      the first capture failure aborts the loop with its error. */
  function Frames(sources: seq<Image>, draw: Image -> Drawing): (r: Result<seq<Frame>, ErrorValue>)
    ensures r.Ok? <==> forall k :: 0 <= k < |sources| ==> !draw(sources[k]).CaptureThrew?
    ensures r.Ok? ==> |r.value| <= |sources| && forall k :: 0 <= k < |r.value| ==> r.value[k].delay == FrameDelay
    ensures r.Ok? && (forall k :: 0 <= k < |sources| ==> draw(sources[k]).Drawn?) ==> |r.value| == |sources|
    ensures r.Ok? ==> (|r.value| == 0 <==> forall k :: 0 <= k < |sources| ==> draw(sources[k]).DrawThrew?)
    ensures r.Err? ==> exists k :: 0 <= k < |sources| && draw(sources[k]) == CaptureThrew(r.error) &&
                                   forall j :: 0 <= j < k ==> !draw(sources[j]).CaptureThrew?
  {
    if |sources| == 0 then Ok([])
    else
      var rest := Frames(sources[1..], draw);
      assert forall k :: 1 <= k < |sources| ==> sources[k] == sources[1..][k - 1];
      match draw(sources[0])
      case CaptureThrew(e) => Err(e)
      case DrawThrew =>
        if rest.Err? then
          var k :| 0 <= k < |sources[1..]| && draw(sources[1..][k]) == CaptureThrew(rest.error) &&
                   forall j :: 0 <= j < k ==> !draw(sources[1..][j]).CaptureThrew?;
          assert draw(sources[k + 1]) == CaptureThrew(rest.error);
          rest
        else rest
      case Drawn(pixels) =>
        if rest.Err? then
          var k :| 0 <= k < |sources[1..]| && draw(sources[1..][k]) == CaptureThrew(rest.error) &&
                   forall j :: 0 <= j < k ==> !draw(sources[1..][j]).CaptureThrew?;
          assert draw(sources[k + 1]) == CaptureThrew(rest.error);
          rest
        else Ok([Frame(pixels, FrameDelay)] + rest.value)
  }

  /** Frames of consecutive runs of sources: the first error wins, otherwise
      the frames are concatenated. */
  function Then(a: Result<seq<Frame>, ErrorValue>, b: Result<seq<Frame>, ErrorValue>): Result<seq<Frame>, ErrorValue> {
    if a.Err? then a else if b.Err? then b else Ok(a.value + b.value)
  }

  lemma {:induction false} FramesConcat(a: seq<Image>, b: seq<Image>, draw: Image -> Drawing)
    ensures Frames(a + b, draw) == Then(Frames(a, draw), Frames(b, draw))
  {
    if |a| > 0 {
      assert (a + b)[1..] == a[1..] + b;
      assert (a + b)[0] == a[0];
      FramesConcat(a[1..], b, draw);
      var ra, rb := Frames(a[1..], draw), Frames(b, draw);
      if draw(a[0]).Drawn? && ra.Ok? && rb.Ok? {
        var f := Frame(draw(a[0]).pixels, FrameDelay);
        assert Frames(a, draw) == Ok([f] + ra.value);
        assert Frames(a + b, draw) == Ok([f] + (ra.value + rb.value));
        assert [f] + (ra.value + rb.value) == ([f] + ra.value) + rb.value;
      }
    } else {
      assert a + b == b;
      if Frames(b, draw).Ok? {
        assert [] + Frames(b, draw).value == Frames(b, draw).value;
      }
    }
  }

  /** The sequential drawing loop of `createGif`, proved to build exactly
      the frames of `Frames`, or to stop at the first capture failure. */
  method DrawFrames(sources: seq<Image>, draw: Image -> Drawing) returns (r: Result<seq<Frame>, ErrorValue>)
    ensures r == Frames(sources, draw)
    ensures r.Ok? ==> forall k :: 0 <= k < |r.value| ==> r.value[k].delay == FrameDelay
  {
    var frames := [];
    var i := 0;
    while i < |sources|
      invariant 0 <= i <= |sources|
      invariant Frames(sources[..i], draw) == Ok(frames)
    {
      var drawing := draw(sources[i]);
      if drawing.CaptureThrew? {
        FramesConcat(sources[..i], sources[i..], draw);
        assert sources[..i] + sources[i..] == sources;
        assert sources[i..][0] == sources[i];
        return Err(drawing.error);
      }
      FramesConcat(sources[..i], [sources[i]], draw);
      assert sources[..i + 1] == sources[..i] + [sources[i]];
      assert [sources[i]][1..] == [];
      assert Frames([sources[i]][1..], draw) == Ok([]);
      if drawing.Drawn? {
        assert [Frame(drawing.pixels, FrameDelay)] + [] == [Frame(drawing.pixels, FrameDelay)];
        assert Frames([sources[i]], draw) == Ok([Frame(drawing.pixels, FrameDelay)]);
        frames := frames + [Frame(drawing.pixels, FrameDelay)];
      } else {
        assert Frames([sources[i]], draw) == Ok([]);
        assert frames + [] == frames;
      }
      i := i + 1;
    }
    assert sources[..i] == sources;
    r := Ok(frames);
  }

  /** Everything one `createGif` call does: the sources it kept, what it
      handed to the encoder, and its result. Errors are rethrown unchanged. */
  datatype GifRun = GifRun(sources: seq<Image>, encoderInput: Option<EncodeInput>, result: Result<Blob, ErrorValue>)

  /** `createGif(urls)` with `load` for the image element of each URL (`None`
      for a failed load), `hasContext` for whether a 2D context was
      obtained, `draw` for what drawing and capturing one source did, and
      `encode` for the encoder. */
  function CreateGif(urls: seq<string>, load: string -> Option<Image>, hasContext: bool,
                     draw: Image -> Drawing, encode: EncodeInput -> Result<Blob, ErrorValue>): (run: GifRun)
    ensures |run.sources| <= |urls|
    ensures run.sources == ValidSources(seq(|urls|, i requires 0 <= i < |urls| => load(urls[i])))
    ensures |run.sources| == 0 ==> run == GifRun([], None, Err(JsError(NoImagesMessage)))
    ensures |run.sources| > 0 && !hasContext ==> run.encoderInput.None? && run.result == Err(JsError(NoContextMessage))
    ensures |run.sources| > 0 && hasContext && Frames(run.sources, draw).Err? ==>
      run.encoderInput.None? && run.result == Err(Frames(run.sources, draw).error)
    ensures run.encoderInput.Some? ==>
      var input := run.encoderInput.value;
      input.width == CanvasWidth && input.height == CanvasHeight &&
      Frames(run.sources, draw) == Ok(input.frames) && 0 < |input.frames| <= |run.sources| &&
      run.result == encode(input)
    ensures |run.sources| > 0 && hasContext && Frames(run.sources, draw) == Ok([]) ==>
      run.encoderInput.None? && run.result == Err(JsError(NoFramesMessage))
    ensures |run.sources| > 0 && hasContext && Frames(run.sources, draw).Ok? && |Frames(run.sources, draw).value| > 0 ==>
      run.encoderInput.Some?
  {
    var loaded := seq(|urls|, i requires 0 <= i < |urls| => load(urls[i]));
    var sources := ValidSources(loaded);
    if |sources| == 0 then GifRun(sources, None, Err(JsError(NoImagesMessage)))
    else if !hasContext then GifRun(sources, None, Err(JsError(NoContextMessage)))
    else match Frames(sources, draw)
      case Err(e) => GifRun(sources, None, Err(e))
      case Ok(frames) =>
        if |frames| == 0 then GifRun(sources, None, Err(JsError(NoFramesMessage)))
        else
          var input := EncodeInput(CanvasWidth, CanvasHeight, frames);
          GifRun(sources, Some(input), encode(input))
  }

  /** Two decodable sources around an undecodable one give two frames, in
      their original order. */
  lemma SkipsUndecodable(a: Image, b: Image, draw: Image -> Drawing)
    requires Usable(Some(a)) && Usable(Some(b))
    requires draw(a).Drawn? && draw(b).Drawn?
    ensures Frames(ValidSources([Some(a), None, Some(b)]), draw)
         == Ok([Frame(draw(a).pixels, FrameDelay), Frame(draw(b).pixels, FrameDelay)])
  {
    assert [Some(a), None, Some(b)][1..] == [None, Some(b)];
    assert [None, Some(b)][1..] == [Some(b)];
    assert [Some(b)][1..] == [];
    assert ValidSources([Some(a), None, Some(b)]) == [a, b];
    assert [a, b][1..] == [b];
    assert [b][1..] == [];
    var fa, fb := Frame(draw(a).pixels, FrameDelay), Frame(draw(b).pixels, FrameDelay);
    assert [fb] + [] == [fb];
    assert Frames([b], draw) == Ok([fb]);
    assert Frames([a, b], draw) == Ok([fa] + [fb]);
    assert [fa] + [fb] == [fa, fb];
  }

  /** A capture failure on a later source discards the frames already
      built: the job fails with that error and nothing is encoded. */
  lemma CaptureFailureAborts(a: Image, b: Image, draw: Image -> Drawing, e: ErrorValue)
    requires draw(a).Drawn? && draw(b) == CaptureThrew(e)
    ensures Frames([a, b], draw) == Err(e)
  {
    assert [a, b][1..] == [b];
    assert [b][1..] == [];
  }
}

=== FILE: language.dfy ===
/** The translation function `t` (contexts/LanguageContext.tsx): key lookup
    in the current language's catalog, then sequential `{name}` placeholder
    substitution. The catalogs themselves are parameters. */
module Language {
  import opened Wrappers
  import opened Text

  /** One language's catalog: plain entries, and categories of entries that
      dotted keys such as `styles.3d` address. */
  datatype Catalog = Catalog(entries: map<string, string>, groups: map<string, map<string, string>>)

  /** The language selected when the provider mounts. */
  const InitialLanguage: string := "zh"

  /** `translations[language][key] || key` for an undotted key, and
      `translations[language][category]?.[subKey] || key` for a dotted key,
      where category and sub-key are the first two `.`-separated pieces. */
  function Lookup(catalog: Catalog, key: string): (r: string)
    ensures '.' !in key ==> (r == if key in catalog.entries && catalog.entries[key] != "" then catalog.entries[key] else key)
    ensures '.' in key ==>
      var category := Split(key, '.')[0];
      var subKey := Split(key, '.')[1];
      r == if category in catalog.groups && subKey in catalog.groups[category] && catalog.groups[category][subKey] != ""
           then catalog.groups[category][subKey] else key
    ensures r == key || r != ""
  {
    if '.' in key then
      var k := FirstIndex(key, '.');
      assert key == key[..k] + ['.'] + key[k + 1..];
      SplitAtFirst(key[..k], '.', key[k + 1..]);
      var pieces := Split(key, '.');
      var category, subKey := pieces[0], pieces[1];
      if category in catalog.groups && subKey in catalog.groups[category] && catalog.groups[category][subKey] != ""
      then catalog.groups[category][subKey]
      else key
    else if key in catalog.entries && catalog.entries[key] != "" then catalog.entries[key]
    else key
  }

  /** A plain key of letters and underscores with no translation reads as
      the key itself. */
  lemma LookupUntranslated(catalog: Catalog, key: string)
    requires forall i :: 0 <= i < |key| ==> key[i] == '_' || 'a' <= key[i] <= 'z'
    ensures key !in catalog.entries ==> Lookup(catalog, key) == key
  {
    assert '.' !in key;
  }

  /** The placeholder a parameter named `name` fills: `{name}`. */
  function Placeholder(name: string): string {
    "{" + name + "}"
  }

  /** A placeholder occurrence begins with `{`. */
  lemma PlaceholderStartsWithBrace(s: string, name: string, j: nat)
    ensures OccursAt(s, Placeholder(name), j) ==> j < |s| && s[j] == '{'
  {
    if OccursAt(s, Placeholder(name), j) {
      assert s[j..j + |Placeholder(name)|][0] == s[j];
    }
  }

  /** Parameters applied one after another, in entry order, each replacing
      only the first occurrence of its placeholder in the text produced so
      far. */
  function Substitute(text: string, params: seq<(string, string)>): (r: string)
    ensures |params| == 0 ==> r == text
    ensures '{' !in text && (forall i :: 0 <= i < |params| ==> '{' !in params[i].1) ==> r == text
    decreases |params|
  {
    if |params| == 0 then text
    else
      var next := ReplaceFirst(text, Placeholder(params[0].0), params[0].1);
      assert '{' !in text ==> next == text by {
        if '{' !in text {
          forall j | 0 <= j <= |text| ensures !OccursAt(text, Placeholder(params[0].0), j) {
            PlaceholderStartsWithBrace(text, params[0].0, j);
          }
        }
      }
      assert forall i :: 0 <= i < |params[1..]| ==> params[1..][i] == params[i + 1];
      Substitute(next, params[1..])
  }

  /** `t(key, params)` in language `language`. An absent parameter object
      leaves the looked-up text unchanged. */
  function Translate(translations: map<string, Catalog>, language: string, key: string,
                     params: Option<seq<(string, string)>>): (r: string)
    requires language in translations
    ensures params.None? ==> r == Lookup(translations[language], key)
    ensures params.Some? && |params.value| == 0 ==> r == Lookup(translations[language], key)
  {
    var text := Lookup(translations[language], key);
    match params
    case None => text
    case Some(ps) => Substitute(text, ps)
  }

  /** Substitution is a left fold: one more parameter at the end rewrites the
      result of all earlier ones. */
  lemma {:induction false} SubstituteSnoc(text: string, params: seq<(string, string)>, last: (string, string))
    ensures Substitute(text, params + [last]) == ReplaceFirst(Substitute(text, params), Placeholder(last.0), last.1)
    decreases |params|
  {
    if |params| == 0 {
      assert params + [last] == [last];
    } else {
      assert (params + [last])[1..] == params[1..] + [last];
      SubstituteSnoc(ReplaceFirst(text, Placeholder(params[0].0), params[0].1), params[1..], last);
    }
  }

  /** A single parameter fills only the first of two occurrences of its
      placeholder; the second survives verbatim. */
  lemma OnlyFirstOccurrence(before: string, middle: string, after: string, name: string, value: string)
    requires forall j :: 0 <= j < |before| ==> !OccursAt(before + Placeholder(name) + (middle + Placeholder(name) + after), Placeholder(name), j)
    ensures Substitute(before + Placeholder(name) + middle + Placeholder(name) + after, [(name, value)])
         == before + value + middle + Placeholder(name) + after
  {
    var p := Placeholder(name);
    var rest := middle + p + after;
    assert before + p + middle + p + after == before + p + rest;
    ReplaceFirstAt(before, p, rest, value);
    assert before + value + rest == before + value + middle + p + after;
  }

  /** Text produced by an earlier parameter is visible to later ones: with
      `a := "{b}"` followed by `b := "x"`, the text `{a}` becomes `x`. */
  lemma ChainedSubstitution()
    ensures Substitute("{a}", [("a", "{b}"), ("b", "x")]) == "x"
  {
    ReplaceFirstAt("", "{a}", "", "{b}");
    assert "" + "{a}" + "" == "{a}";
    assert Placeholder("a") == "{a}";
    ReplaceFirstAt("", "{b}", "", "x");
    assert "" + "{b}" + "" == "{b}";
    assert Placeholder("b") == "{b}";
  }

  /** The dotted form `category.subKey` (optionally followed by more
      `.`-pieces, which are ignored) reads entry `subKey` of category
      `category`, and falls back to the whole key. */
  lemma {:induction false} LookupDotted(catalog: Catalog, category: string, subKey: string, tail: string)
    requires '.' !in category && '.' !in subKey
    requires tail == "" || tail[0] == '.'
    ensures var key := category + "." + subKey + tail;
      Lookup(catalog, key) ==
        if category in catalog.groups && subKey in catalog.groups[category] && catalog.groups[category][subKey] != ""
        then catalog.groups[category][subKey] else key
  {
    var key := category + "." + subKey + tail;
    DottedPieces(category, subKey + tail);
    LeadingPiece(subKey, tail);
    assert key == category + "." + (subKey + tail);
    assert key[|category|] == '.';
  }

  /** In `category.rest` the first piece is the category and the second is
      the first piece of `rest`. */
  lemma DottedPieces(category: string, rest: string)
    requires '.' !in category
    ensures |Split(category + "." + rest, '.')| >= 2
    ensures Split(category + "." + rest, '.')[0] == category
    ensures Split(category + "." + rest, '.')[1] == Split(rest, '.')[0]
  {
    assert category + "." + rest == category + ['.'] + rest;
    SplitAtFirst(category, '.', rest);
  }

  /** A dot-free text followed by nothing or by a `.`-tail is the first
      piece. */
  lemma LeadingPiece(subKey: string, tail: string)
    requires '.' !in subKey
    requires tail == "" || tail[0] == '.'
    ensures Split(subKey + tail, '.')[0] == subKey
  {
    if tail == "" {
      assert subKey + tail == subKey;
      SplitNoSep(subKey, '.');
    } else {
      assert subKey + tail == subKey + ['.'] + tail[1..];
      SplitAtFirst(subKey, '.', tail[1..]);
    }
  }
}

=== FILE: quota.dfy ===
/** The per-day guest quota (App.tsx `checkGuestLimit` and
    `incrementGuestUsage`). The stored record is the parsed value of the
    `guest_usage` storage key; `today` is the caller's `toDateString()`. */
module Quota {
  import opened Wrappers
  import opened Text
  import opened Types

  const GuestDailyLimit: int := 10

  /** The parsed `{date, count}` record; either field may be missing. */
  datatype UsageRecord = UsageRecord(date: Option<string>, count: Option<int>)

  /** `JSON.parse(localStorage.getItem('guest_usage') || '{}')`. */
  function ReadUsage(stored: Option<UsageRecord>): UsageRecord {
    stored.GetOr(UsageRecord(None, None))
  }

  /** Only identities whose id starts with `guest-` are quota-limited. */
  predicate IsGuest(user: Option<User>) {
    user.Some? && StartsWith(user.value.id, "guest-")
  }

  /** `checkGuestLimit`: rejects exactly when a guest's stored record is
      dated today and its count has reached the limit. A missing count
      compares as `undefined >= 10`, which is false. */
  function CheckGuestLimit(user: Option<User>, today: string, stored: Option<UsageRecord>): (pass: bool)
    ensures !IsGuest(user) ==> pass
    ensures ReadUsage(stored).date != Some(today) ==> pass
    ensures !pass <==> IsGuest(user) && ReadUsage(stored).date == Some(today) &&
                       ReadUsage(stored).count.Some? && ReadUsage(stored).count.value >= GuestDailyLimit
  {
    if !IsGuest(user) then true
    else
      var usage := ReadUsage(stored);
      if usage.date != Some(today) then true
      else !(usage.count.Some? && usage.count.value >= GuestDailyLimit)
  }

  /** `usageData.count || 0`. */
  function CountOrZero(usage: UsageRecord): int {
    usage.count.GetOr(0)
  }

  /** `incrementGuestUsage`: nothing for non-guests; otherwise the record is
      rewritten dated today, counting 1 after a stale or missing date and
      one more than the stored count on the same day. */
  function IncrementGuestUsage(user: Option<User>, today: string, stored: Option<UsageRecord>): (r: Option<UsageRecord>)
    ensures !IsGuest(user) ==> r == stored
    ensures IsGuest(user) ==> r.Some? && r.value.date == Some(today) && r.value.count.Some?
    ensures IsGuest(user) && ReadUsage(stored).date != Some(today) ==> r.value.count == Some(1)
    ensures IsGuest(user) && ReadUsage(stored).date == Some(today) ==> r.value.count == Some(CountOrZero(ReadUsage(stored)) + 1)
  {
    if !IsGuest(user) then stored
    else
      var usage := ReadUsage(stored);
      var newCount := if usage.date == Some(today) then CountOrZero(usage) + 1 else 1;
      Some(UsageRecord(Some(today), Some(newCount)))
  }

  /** The counter shown to a guest when the gallery loads: today's count, or
      0 for a stale record (App.tsx:64-72). */
  function DisplayedUsage(today: string, stored: Option<UsageRecord>): (n: int)
    ensures ReadUsage(stored).date != Some(today) ==> n == 0
    ensures ReadUsage(stored).date == Some(today) ==> n == CountOrZero(ReadUsage(stored))
  {
    var usage := ReadUsage(stored);
    if usage.date == Some(today) then CountOrZero(usage) else 0
  }

  /** `n` quota-limited operations in a row on day `today`, each checking the
      gate and incrementing on success; `None` once one of them is rejected. */
  function UseTimes(user: Option<User>, today: string, stored: Option<UsageRecord>, n: nat): Option<Option<UsageRecord>> {
    if n == 0 then Some(stored)
    else match UseTimes(user, today, stored, n - 1)
      case None => None
      case Some(s) =>
        if CheckGuestLimit(user, today, s) then Some(IncrementGuestUsage(user, today, s)) else None
  }

  /** From a record dated today with count `c`, the next `n` uses succeed as
      long as `c + n` stays within the limit, and the count rises by `n`. */
  lemma {:induction false} UsesWithinLimit(user: Option<User>, today: string, c: nat, n: nat)
    requires IsGuest(user)
    requires c + n <= GuestDailyLimit
    ensures UseTimes(user, today, Some(UsageRecord(Some(today), Some(c))), n)
         == Some(Some(UsageRecord(Some(today), Some(c + n))))
  {
    if n > 0 {
      UsesWithinLimit(user, today, c, n - 1);
    }
  }

  /** Once the day's count has reached the limit every further use is
      rejected. */
  lemma AtLimitRejected(user: Option<User>, today: string, c: int)
    requires IsGuest(user) && c >= GuestDailyLimit
    ensures !CheckGuestLimit(user, today, Some(UsageRecord(Some(today), Some(c))))
  {
  }

  /** On one day, starting from a stale or missing record: the first use
      restarts the count at 1, uses 1 to 10 succeed, the 11th is rejected. */
  lemma {:induction false} DailyLimit(user: Option<User>, today: string, stored: Option<UsageRecord>)
    requires IsGuest(user)
    requires ReadUsage(stored).date != Some(today)
    ensures forall n :: 1 <= n <= GuestDailyLimit ==>
      UseTimes(user, today, stored, n) == Some(Some(UsageRecord(Some(today), Some(n))))
    ensures UseTimes(user, today, stored, GuestDailyLimit + 1) == None
  {
    var first := Some(UsageRecord(Some(today), Some(1)));
    assert UseTimes(user, today, stored, 1) == Some(first);
    forall n | 1 <= n <= GuestDailyLimit
      ensures UseTimes(user, today, stored, n) == Some(Some(UsageRecord(Some(today), Some(n))))
    {
      ShiftStart(user, today, stored, first, n - 1);
      UsesWithinLimit(user, today, 1, n - 1);
    }
    ShiftStart(user, today, stored, first, GuestDailyLimit);
    UsesWithinLimit(user, today, 1, GuestDailyLimit - 1);
    assert UseTimes(user, today, first, GuestDailyLimit - 1) == Some(Some(UsageRecord(Some(today), Some(GuestDailyLimit))));
    AtLimitRejected(user, today, GuestDailyLimit);
  }

  /** `k + 1` uses from `stored` are the first use followed by `k` more. */
  lemma {:induction false} ShiftStart(user: Option<User>, today: string, stored: Option<UsageRecord>,
                                       first: Option<UsageRecord>, k: nat)
    requires UseTimes(user, today, stored, 1) == Some(first)
    ensures UseTimes(user, today, stored, k + 1) == UseTimes(user, today, first, k)
  {
    if k > 0 {
      ShiftStart(user, today, stored, first, k - 1);
    }
  }

  /** On a later day the gate opens again, whatever the previous count. */
  lemma NewDayPasses(user: Option<User>, yesterday: string, today: string, c: int)
    requires yesterday != today
    ensures CheckGuestLimit(user, today, Some(UsageRecord(Some(yesterday), Some(c))))
    ensures IncrementGuestUsage(user, today, Some(UsageRecord(Some(yesterday), Some(c)))).GetOr(UsageRecord(None, None)).count
         == (if IsGuest(user) then Some(1) else Some(c))
  {
  }
}

=== FILE: store.dfy ===
/** The gallery and its persistence (App.tsx): a newest-first sequence of
    artifacts, deletion by id, and the load/save effects that keep one
    storage slot per user. Storage is a map from key to the parsed stored
    value; a value that `JSON.parse` rejects is `Unparsable`. */
module GalleryStore {
  import opened Wrappers
  import opened Types

  type Gallery = seq<GeneratedImage>

  /** `[newImage, ...prev]`. */
  function Prepend(g: Gallery, a: GeneratedImage): (r: Gallery)
    ensures |r| == |g| + 1 && r[0] == a && r[1..] == g
  {
    [a] + g
  }

  /** `prev.filter(img => img.id !== id)`. */
  function DeleteById(g: Gallery, id: string): (r: Gallery)
    ensures forall x :: x in r <==> x in g && x.id != id
    ensures |r| <= |g|
    ensures (forall k :: 0 <= k < |g| ==> g[k].id != id) ==> r == g
  {
    if |g| == 0 then []
    else if g[0].id == id then DeleteById(g[1..], id)
    else [g[0]] + DeleteById(g[1..], id)
  }

  /** Deletion works piecewise, so the surviving entries keep their order. */
  lemma {:induction false} DeleteConcat(a: Gallery, b: Gallery, id: string)
    ensures DeleteById(a + b, id) == DeleteById(a, id) + DeleteById(b, id)
  {
    if |a| > 0 {
      assert (a + b)[1..] == a[1..] + b;
      DeleteConcat(a[1..], b, id);
    } else {
      assert a + b == b;
    }
  }

  /** Every copy of an entry with another id survives, and none with the
      deleted id does. */
  lemma {:induction false} DeleteCounts(g: Gallery, id: string, x: GeneratedImage)
    ensures multiset(DeleteById(g, id))[x] == if x.id == id then 0 else multiset(g)[x]
  {
    if |g| > 0 {
      DeleteCounts(g[1..], id, x);
      assert g == [g[0]] + g[1..];
    }
  }

  /** Deleting an id that occurs removes at least one entry. */
  lemma {:induction false} DeleteShrinks(g: Gallery, id: string, k: nat)
    requires k < |g| && g[k].id == id
    ensures |DeleteById(g, id)| < |g|
  {
    if g[0].id != id {
      DeleteShrinks(g[1..], id, k - 1);
    }
  }

  /** Deleting a fresh artifact right after adding it restores the gallery. */
  lemma DeleteUndoesPrepend(g: Gallery, a: GeneratedImage)
    requires forall k :: 0 <= k < |g| ==> g[k].id != a.id
    ensures DeleteById(Prepend(g, a), a.id) == g
  {
    assert Prepend(g, a)[1..] == g;
  }

  /** The bulk delete of the gallery view: one deletion per selected id. */
  function DeleteAll(g: Gallery, ids: seq<string>): (r: Gallery)
    ensures |r| <= |g|
    decreases |ids|
  {
    if |ids| == 0 then g else DeleteAll(DeleteById(g, ids[0]), ids[1..])
  }

  /** The entries whose id is not listed, in gallery order. */
  function Without(g: Gallery, ids: seq<string>): (r: Gallery)
    ensures forall x :: x in r <==> x in g && x.id !in ids
  {
    if |g| == 0 then []
    else if g[0].id in ids then Without(g[1..], ids)
    else [g[0]] + Without(g[1..], ids)
  }

  /** One pass per id removes exactly the listed ids and keeps the rest in
      order. */
  lemma {:induction false} DeleteAllIsWithout(g: Gallery, ids: seq<string>)
    ensures DeleteAll(g, ids) == Without(g, ids)
    decreases |ids|
  {
    if |ids| == 0 {
      WithoutNothing(g, ids);
    } else {
      DeleteAllIsWithout(DeleteById(g, ids[0]), ids[1..]);
      WithoutAfterDelete(g, ids);
    }
  }

  lemma {:induction false} WithoutNothing(g: Gallery, ids: seq<string>)
    requires |ids| == 0
    ensures Without(g, ids) == g
  {
    if |g| > 0 {
      WithoutNothing(g[1..], ids);
    }
  }

  lemma {:induction false} WithoutAfterDelete(g: Gallery, ids: seq<string>)
    requires |ids| > 0
    ensures Without(DeleteById(g, ids[0]), ids[1..]) == Without(g, ids)
  {
    if |g| > 0 {
      WithoutAfterDelete(g[1..], ids);
      assert ids == [ids[0]] + ids[1..];
    }
  }

  /** The parsed content of one storage slot. */
  datatype Stored = Parsed(items: Gallery) | Unparsable

  /** The part of the application state that the load/save effects touch. */
  datatype Session = Session(user: Option<User>, gallery: Gallery, loaded: bool, slots: map<string, Stored>)

  /** `sunny_gallery_${user.id}`. */
  function SlotKey(userId: string): string {
    "sunny_gallery_" + userId
  }

  /** What the load effect finds for a user: a missing or unparsable slot
      loads as the empty gallery. */
  function StoredGallery(slots: map<string, Stored>, userId: string): (g: Gallery)
    ensures SlotKey(userId) !in slots ==> g == []
    ensures SlotKey(userId) in slots && slots[SlotKey(userId)].Unparsable? ==> g == []
    ensures SlotKey(userId) in slots && slots[SlotKey(userId)].Parsed? ==> g == slots[SlotKey(userId)].items
  {
    var key := SlotKey(userId);
    if key in slots && slots[key].Parsed? then slots[key].items else []
  }

  /** The load effect, run when the user changes. Without a user the gallery
      is cleared and marked not loaded. */
  function LoadEffect(s: Session): (r: Session)
    ensures r.slots == s.slots && r.user == s.user
    ensures s.user.None? ==> r.gallery == [] && !r.loaded
    ensures s.user.Some? ==> r.loaded && r.gallery == StoredGallery(s.slots, s.user.value.id)
  {
    match s.user
    case None => s.(gallery := [], loaded := false)
    case Some(u) => s.(gallery := StoredGallery(s.slots, u.id), loaded := true)
  }

  /** The save effect: writes the whole gallery to the user's slot, but only
      when a user is present and that user's gallery has loaded. */
  function SaveEffect(s: Session): (r: Session)
    ensures r.user == s.user && r.gallery == s.gallery && r.loaded == s.loaded
    ensures s.user.None? || !s.loaded ==> r.slots == s.slots
    ensures s.user.Some? && s.loaded ==> r.slots == s.slots[SlotKey(s.user.value.id) := Parsed(s.gallery)]
  {
    if s.user.Some? && s.loaded then s.(slots := s.slots[SlotKey(s.user.value.id) := Parsed(s.gallery)])
    else s
  }

  /** A gallery mutation followed by the save effect it triggers. */
  function Mutate(s: Session, g: Gallery): (r: Session)
    ensures r.gallery == g && r.user == s.user && r.loaded == s.loaded
    ensures s.user.Some? && s.loaded ==> r.slots == s.slots[SlotKey(s.user.value.id) := Parsed(g)]
    ensures s.user.None? || !s.loaded ==> r.slots == s.slots
  {
    SaveEffect(s.(gallery := g))
  }

  /** A change of user as React commits it: both effects of the render that
      shows the new user run with that render's gallery and loaded flag (the
      load effect reads storage first), and the state the load effect set
      triggers one more save in the next commit. */
  function SwitchUser(s: Session, u: Option<User>): (r: Session)
    ensures r.user == u && (r.loaded <==> u.Some?)
    ensures u.None? ==> r.gallery == []
    ensures u.Some? ==> r.gallery == StoredGallery(s.slots, u.value.id)
  {
    var rendered := s.(user := u);
    var afterLoad := LoadEffect(rendered);
    var sameCommit := SaveEffect(rendered);
    SaveEffect(afterLoad.(slots := sameCommit.slots))
  }

  /** After a user switch settles, the new user's slot holds exactly what was
      loaded for that user and no other slot has changed; signing out writes
      nothing. So a previous user's gallery never ends up in the new user's
      slot. */
  lemma SwitchUserStorage(s: Session, u: Option<User>)
    ensures u.None? ==> SwitchUser(s, u).slots == s.slots && SwitchUser(s, u).gallery == [] && !SwitchUser(s, u).loaded
    ensures u.Some? ==>
      var g := StoredGallery(s.slots, u.value.id);
      SwitchUser(s, u).gallery == g && SwitchUser(s, u).loaded &&
      SwitchUser(s, u).slots == s.slots[SlotKey(u.value.id) := Parsed(g)]
  {
  }

  /** Signing out and then in as another user never writes before the new
      user's gallery has loaded: the render that shows the new user still has
      the flag cleared by the sign-out. */
  lemma NoSaveBeforeLoad(s: Session, u: User)
    ensures var out := SwitchUser(s, None);
            SaveEffect(out.(user := Some(u))).slots == s.slots
  {
  }
}

=== FILE: text.dfy ===
/** The handful of JavaScript string operations the application relies on,
    written over `seq<char>`: `startsWith`, `split` on a one-character
    separator, `indexOf`, `replace` with a string pattern (first occurrence
    only) and decimal rendering of a non-negative number. */
module Text {
  import opened Wrappers

  /** JavaScript truthiness of an optional string: present and non-empty. */
  predicate Truthy(s: Option<string>) {
    s.Some? && s.value != ""
  }

  predicate StartsWith(s: string, prefix: string) {
    |prefix| <= |s| && s[..|prefix|] == prefix
  }

  lemma StartsWithConcat(prefix: string, rest: string)
    ensures StartsWith(prefix + rest, prefix)
  {
    assert (prefix + rest)[..|prefix|] == prefix;
  }

  /** `s.split(sep)`: the maximal separator-free pieces, in order. There is
      always at least one piece (the empty string splits into `[""]`). */
  function Split(s: string, sep: char): (pieces: seq<string>)
    ensures |pieces| >= 1
    ensures |pieces| >= 2 <==> sep in s
    ensures forall i :: 0 <= i < |pieces| ==> sep !in pieces[i]
  {
    if |s| == 0 then [""]
    else
      var rest := Split(s[1..], sep);
      if s[0] == sep then [""] + rest
      else [[s[0]] + rest[0]] + rest[1..]
  }

  /** `pieces.join(sep)`. */
  function Join(pieces: seq<string>, sep: char): string
    requires |pieces| >= 1
  {
    if |pieces| == 1 then pieces[0]
    else pieces[0] + [sep] + Join(pieces[1..], sep)
  }

  /** `s.split(sep)[k]`, with `None` standing for JavaScript's `undefined`
      when there are fewer than `k + 1` pieces. */
  function Piece(s: string, sep: char, k: nat): Option<string> {
    var pieces := Split(s, sep);
    if k < |pieces| then Some(pieces[k]) else None
  }

  /** The text before the first separator, or all of `s` when there is none. */
  function UpToSep(s: string, sep: char): string {
    if sep in s then s[..FirstIndex(s, sep)] else s
  }

  /** The first piece of a split is the text up to the first separator. */
  lemma FirstPiece(s: string, sep: char)
    ensures Split(s, sep)[0] == UpToSep(s, sep)
  {
    if sep in s {
      var j := FirstIndex(s, sep);
      assert s == s[..j] + [sep] + s[j + 1..];
      SplitAtFirst(s[..j], sep, s[j + 1..]);
    } else {
      SplitNoSep(s, sep);
    }
  }

  /** `s.split(sep)[1]`: absent without a separator, and otherwise the text
      between the first separator and the next one (or the end). */
  lemma SecondPiece(s: string, sep: char)
    ensures sep !in s ==> Piece(s, sep, 1).None?
    ensures sep in s ==> Piece(s, sep, 1) == Some(UpToSep(s[FirstIndex(s, sep) + 1..], sep))
  {
    if sep in s {
      var j := FirstIndex(s, sep);
      assert s == s[..j] + [sep] + s[j + 1..];
      SplitAtFirst(s[..j], sep, s[j + 1..]);
      FirstPiece(s[j + 1..], sep);
    }
  }

  /** A string without the separator is a single piece. */
  lemma {:induction false} SplitNoSep(s: string, sep: char)
    requires sep !in s
    ensures Split(s, sep) == [s]
  {
    if |s| > 0 {
      assert sep !in s[1..];
      SplitNoSep(s[1..], sep);
      assert [s[0]] + s[1..] == s;
    }
  }

  /** Splitting stops at the first separator: the text before it is the
      first piece and the rest is split on its own. */
  lemma {:induction false} SplitAtFirst(a: string, sep: char, b: string)
    requires sep !in a
    ensures Split(a + [sep] + b, sep) == [a] + Split(b, sep)
  {
    if |a| == 0 {
      assert a + [sep] + b == [sep] + b;
      assert ([sep] + b)[1..] == b;
    } else {
      var s := a + [sep] + b;
      assert s[0] == a[0];
      assert s[1..] == a[1..] + [sep] + b;
      assert sep !in a[1..];
      SplitAtFirst(a[1..], sep, b);
      assert [a[0]] + a[1..] == a;
    }
  }

  /** Joining the pieces with the separator rebuilds the original string. */
  lemma {:induction false} JoinSplit(s: string, sep: char)
    ensures Join(Split(s, sep), sep) == s
  {
    if sep !in s {
      SplitNoSep(s, sep);
    } else {
      var j := FirstIndex(s, sep);
      var a, b := s[..j], s[j + 1..];
      assert s == a + [sep] + b;
      SplitAtFirst(a, sep, b);
      JoinSplit(b, sep);
      assert Split(s, sep)[1..] == Split(b, sep);
    }
  }

  /** Splitting a join of separator-free pieces gives the pieces back. */
  lemma {:induction false} SplitJoin(pieces: seq<string>, sep: char)
    requires |pieces| >= 1
    requires forall i :: 0 <= i < |pieces| ==> sep !in pieces[i]
    ensures Split(Join(pieces, sep), sep) == pieces
  {
    if |pieces| == 1 {
      SplitNoSep(pieces[0], sep);
    } else {
      SplitJoin(pieces[1..], sep);
      SplitAtFirst(pieces[0], sep, Join(pieces[1..], sep));
      assert [pieces[0]] + pieces[1..] == pieces;
    }
  }

  /** Position of the first occurrence of a character known to occur. */
  function FirstIndex(s: string, c: char): (i: nat)
    requires c in s
    ensures i < |s| && s[i] == c && c !in s[..i]
  {
    if s[0] == c then 0
    else
      assert c in s[1..] by { var k :| 0 <= k < |s| && s[k] == c; assert s[1..][k - 1] == c; }
      var j := FirstIndex(s[1..], c);
      assert s[..j + 1] == [s[0]] + s[1..][..j];
      j + 1
  }

  /** `pattern` occurs in `s` starting at position `at`. */
  predicate OccursAt(s: string, pattern: string, at: nat) {
    at + |pattern| <= |s| && s[at..at + |pattern|] == pattern
  }

  /** `s.indexOf(pattern, from)`: the least position `>= from` where the
      pattern occurs, `None` for JavaScript's `-1`. */
  function IndexOfFrom(s: string, pattern: string, from: nat): (r: Option<nat>)
    requires from <= |s|
    ensures r.Some? ==> from <= r.value && OccursAt(s, pattern, r.value)
    ensures r.Some? ==> forall j :: from <= j < r.value ==> !OccursAt(s, pattern, j)
    ensures r.None? ==> forall j :: from <= j <= |s| ==> !OccursAt(s, pattern, j)
    decreases |s| - from
  {
    if OccursAt(s, pattern, from) then Some(from)
    else if from == |s| then None
    else IndexOfFrom(s, pattern, from + 1)
  }

  function IndexOf(s: string, pattern: string): Option<nat> {
    IndexOfFrom(s, pattern, 0)
  }

  /** `s.replace(pattern, replacement)` with a string pattern: only the first
      occurrence is replaced; without one the string is returned unchanged.
      (Replacement strings are taken literally; the `$` forms are not modelled.) */
  function ReplaceFirst(s: string, pattern: string, replacement: string): (r: string)
    ensures (forall j :: 0 <= j <= |s| ==> !OccursAt(s, pattern, j)) ==> r == s
    ensures (exists j :: 0 <= j <= |s| && OccursAt(s, pattern, j)) ==> |r| == |s| - |pattern| + |replacement|
  {
    match IndexOf(s, pattern)
    case None => s
    case Some(i) => s[..i] + replacement + s[i + |pattern|..]
  }

  /** Replacing where the pattern does not occur changes nothing. */
  lemma ReplaceFirstAbsent(s: string, pattern: string, replacement: string)
    requires forall j :: 0 <= j <= |s| ==> !OccursAt(s, pattern, j)
    ensures ReplaceFirst(s, pattern, replacement) == s
  {
  }

  /** When the first occurrence of the pattern starts right after `before`,
      exactly that occurrence is rewritten and everything after it, later
      occurrences included, is kept verbatim. */
  lemma ReplaceFirstAt(before: string, pattern: string, after: string, replacement: string)
    requires forall j :: 0 <= j < |before| ==> !OccursAt(before + pattern + after, pattern, j)
    ensures ReplaceFirst(before + pattern + after, pattern, replacement) == before + replacement + after
  {
    var s := before + pattern + after;
    assert OccursAt(s, pattern, |before|) by {
      assert s[|before|..|before| + |pattern|] == pattern;
    }
    assert s[..|before|] == before;
    assert s[|before| + |pattern|..] == after;
  }

  /** The value of a decimal digit. */
  function DigitValue(c: char): int {
    c as int - '0' as int
  }

  function DigitChar(d: nat): (c: char)
    requires d < 10
    ensures '0' <= c <= '9' && DigitValue(c) == d
  {
    "0123456789"[d]
  }

  /** The number a string of decimal digits spells. */
  function DecimalValue(r: string): int {
    if |r| == 0 then 0 else 10 * DecimalValue(r[..|r| - 1]) + DigitValue(r[|r| - 1])
  }

  /** Decimal rendering of a non-negative number, as `String(n)` does: the
      digits spell `n`, with no leading zero. */
  function NatToString(n: nat): (r: string)
    ensures |r| >= 1
    ensures forall i :: 0 <= i < |r| ==> '0' <= r[i] <= '9'
    ensures DecimalValue(r) == n
    ensures |r| > 1 ==> r[0] != '0'
  {
    if n < 10 then [DigitChar(n)]
    else
      var prefix := NatToString(n / 10);
      var r := prefix + [DigitChar(n % 10)];
      assert r[..|r| - 1] == prefix;
      r
  }
}

=== FILE: types.dfy ===
/** The shared data types of the application (types.ts). */
module Types {
  import opened Wrappers

  /** The seven avatar styles the generator offers. */
  datatype AvatarStyleId = ThreeD | Anime | Clay | Flat | Sketch | Pixel | Watercolor

  /** The string tag each style carries in the source ('3d', 'anime', ...). */
  function StyleTag(style: AvatarStyleId): string {
    match style
    case ThreeD => "3d"
    case Anime => "anime"
    case Clay => "clay"
    case Flat => "flat"
    case Sketch => "sketch"
    case Pixel => "pixel"
    case Watercolor => "watercolor"
  }

  datatype MediaType = Image | Video | Gif

  /** One gallery artifact. `style` and `mediaType` are optional fields; an
      absent media type means an image. */
  datatype GeneratedImage = GeneratedImage(
    id: string,
    url: string,
    timestamp: int,
    style: Option<AvatarStyleId>,
    mediaType: Option<MediaType>)

  datatype User = User(id: string, name: string, email: string, picture: string)

  datatype ProcessingStatus =
    | Idle
    | GeneratingAvatar
    | GeneratingGif
    | EditingImage
    | GeneratingVideo
    | Success
    | Error
}

=== FILE: wrappers.dfy ===
/** Failure-carrying values used throughout the model: JavaScript's
    `undefined`/`null` become `None`, a thrown exception becomes `Err`. */
module Wrappers {

  datatype Option<+T> = None | Some(value: T) {
    /** The value, or `default` when absent (JavaScript's `?? default`). */
    function GetOr(default: T): T {
      match this
      case Some(v) => v
      case None => default
    }
  }

  datatype Result<+T, +E> = Ok(value: T) | Err(error: E)
}
